=== FILE: README.md ===
# EcoBuild core in Dafny

EcoBuild rewards people for collecting recyclable waste. A verifier service
classifies a photo of the collection. It maps the category to a material code
and records the collection on Solana through the `ecobuild` program as a
proof-of-collection receipt. Players also hold a credit counter, and they
can contribute credits to community project pools.

This project models four pure cores of the system and proves properties of
them:

- **The on-chain program** (`programs/ecobuild/src/lib.rs`):
  - the `PlayerProfile`, `ProjectPool` and `ProofOfCollectionReceipt` records with their `initialize` methods;
  - the checked counter updates `add_credits` and `record_contribution`, and the `contribute_credits` handler;
  - the text readers `name()` and `zone_id()`, and `MaterialType::try_from`;
  - the `SIZE` constants and `ErrorCode`.

  Each `&mut self` method is a pure function from the prior record and the arguments to `Ok(new record)` or `Err(ErrorCode)` (`ecobuild.dfy`).
  Above the records sits a ledger of program-derived accounts keyed by their seed lists. The four instructions run on it as atomic transactions (`program.dfy`).
  The `SIZE` constants are tied to a byte encoder in field order, in `account_layout.dfy` and `little_endian.dfy`.
- **`wasteTypeToU8`** and the player-profile seed list of the verifier's Solana client (`apps/verifier/src/solana-client.ts`), in `waste_types.dfy`. It uses the JavaScript string operations in `js_string.dfy` and UTF-8 in `utf8.dfy`.
- **The classifier adapter** (`apps/verifier/src/vision.ts`), in `vision.dfy`:
  - the fixed verdict returned when no credential is configured;
  - the clamp/default block applied to the classifier's reply;
  - `normalizeMediaType`.
- **Web constants** (`apps/web/src/lib/constants.ts`), in `web_constants.dfy`: `BLOCKS_PER_BRICK`, the explorer URL builders and the crafting-tier table.

Some modelling choices apply throughout:

- Rust's `u8`, `u64` and `i64` are subset types of `int`. Overflow is checked explicitly, as `checked_add` does.
- Byte strings are `seq<u8>`, and `[u8; 32]` is a 32-byte subset type.
- JavaScript strings are `seq<char>`.
- An error leaves the record unchanged. Each `&mut self` method makes all its checks before its first write. The `contribute_credits` handler is the exception: it credits the player (`lib.rs:39`) before the pool's overflow check (`lib.rs:40`). The Solana runtime discards all writes of a failed transaction, so that failure also leaves both accounts unchanged.
- Text arguments are strings, and what the program stores is their UTF-8 bytes.

## Model

| member | source | states |
|---|---|---|
| Ecobuild.CheckedAdd | programs/ecobuild/src/lib.rs:171-174 | `checked_add` yields a value exactly when the sum is at most `u64::MAX`, and that value is the sum |
| Ecobuild.MaterialFromU8 | programs/ecobuild/src/lib.rs:327-335 | `try_from` succeeds exactly for 0..3 and otherwise fails with `InvalidMaterialType` |
| Ecobuild.MaterialRoundTrip | programs/ecobuild/src/lib.rs:317-335 | decoding a material's `repr(u8)` discriminant gives the material back, and every accepted byte is the discriminant of the material it decodes to |
| Ecobuild.Padded | programs/ecobuild/src/lib.rs:223-224 | the zero-filled 32-byte buffer starts with the copied text and is zero after it |
| Ecobuild.ReadText | programs/ecobuild/src/lib.rs:236-239 | reading panics (None) exactly when the stored length exceeds 32; when the stored prefix is UTF-8 the result is the string whose UTF-8 bytes are that prefix, and otherwise it is the empty string |
| Ecobuild.ReadPadded | programs/ecobuild/src/lib.rs:222-224 | any string of at most 32 UTF-8 bytes, stored zero-padded with its byte length, reads back unchanged |
| Ecobuild.InitializePlayer | programs/ecobuild/src/lib.rs:163-168 | profile initialisation always succeeds, sets authority and bump to the arguments and resets total credits to 0 |
| Ecobuild.InitializeIgnoresPriorState | programs/ecobuild/src/lib.rs:358-371 | the outcome of each `initialize` does not depend on the prior record, e.g. a profile holding 12 credits is reset like any other |
| Ecobuild.AddCredits | programs/ecobuild/src/lib.rs:170-176 | succeeds exactly when total credits plus the amount fit in a `u64`; then only `total_credits` changes, by the amount; otherwise fails with `Overflow` |
| Ecobuild.InitializePool | programs/ecobuild/src/lib.rs:202-226 | succeeds exactly when goal > 0 and the name has at most 32 bytes; on success it stores authority, bump, seed and goal, sets received credits to 0, stores the name length, and holds the name bytes followed by zeros |
| Ecobuild.PoolReportsFirstViolation | programs/ecobuild/src/lib.rs:210-215 | pool creation fails exactly when a check fails, and then reports the first failing check in order: zero goal (`InvalidAmount`) before name length (`NameTooLong`) |
| Ecobuild.RecordContribution | programs/ecobuild/src/lib.rs:228-234 | succeeds exactly when received credits plus the amount fit in a `u64`; then only `received_credits` changes, by the amount; otherwise fails with `Overflow` |
| Ecobuild.PoolName | programs/ecobuild/src/lib.rs:236-239 | `name()` panics (None) exactly when the stored length exceeds 32; valid UTF-8 name bytes read as the string they encode, and invalid ones as the empty string |
| Ecobuild.PoolNameRoundTrip | programs/ecobuild/src/lib.rs:236-239 | `name()` of a successfully created pool returns the name it was created with |
| Ecobuild.ContributeCredits | programs/ecobuild/src/lib.rs:32-41 | amount 0 fails with `InvalidAmount`; otherwise it succeeds exactly when both sums fit, adds the same amount to the player's total and the pool's received credits and changes nothing else, and fails with `Overflow` otherwise |
| Ecobuild.InitializeReceipt | programs/ecobuild/src/lib.rs:280-301 | each error holds exactly when its check is the first to fail, in order: quantity 0, timestamp ≤ 0, zone id over 32 bytes, material over 3; success holds exactly when all checks pass, and then every argument is stored verbatim, with the zone id zero-padded |
| Ecobuild.ReceiptReportsFirstViolation | programs/ecobuild/src/lib.rs:280-289 | receipt creation fails exactly when the list of failing checks is non-empty, with the first of them |
| Ecobuild.ReceiptZoneId | programs/ecobuild/src/lib.rs:311-314 | `zone_id()` panics (None) exactly when the stored length exceeds 32; valid UTF-8 zone-id bytes read as the string they encode, and invalid ones as the empty string |
| Ecobuild.ZoneIdRoundTrip | programs/ecobuild/src/lib.rs:311-314 | `zone_id()` of a successfully created receipt returns the zone id it was created with |
| AccountLayout.EncodePlayer | programs/ecobuild/src/lib.rs:149-161 | the encoded profile, discriminator first, is exactly `PlayerProfile::SIZE` = 49 bytes |
| AccountLayout.PlayerRoundTrip | programs/ecobuild/src/lib.rs:149-154 | decoding an encoded profile gives the profile back |
| AccountLayout.PlayerBytesRoundTrip | programs/ecobuild/src/lib.rs:158-161 | every 49-byte string with the right discriminator is the encoding of what it decodes to |
| AccountLayout.DecodePlayer | programs/ecobuild/src/lib.rs:149-161 | decoding succeeds exactly when the data is at least `SIZE` bytes and starts with the account discriminator |
| AccountLayout.EncodePool | programs/ecobuild/src/lib.rs:179-200 | the encoded pool is exactly `ProjectPool::SIZE` = 98 bytes |
| AccountLayout.PoolRoundTrip | programs/ecobuild/src/lib.rs:179-188 | decoding an encoded pool gives the pool back |
| AccountLayout.PoolBytesRoundTrip | programs/ecobuild/src/lib.rs:193-200 | every 98-byte string with the right discriminator is the encoding of what it decodes to |
| AccountLayout.EncodeReceipt | programs/ecobuild/src/lib.rs:242-267 | the encoded receipt is exactly `ProofOfCollectionReceipt::SIZE` = 155 bytes |
| AccountLayout.ReceiptRoundTrip | programs/ecobuild/src/lib.rs:242-253 | decoding an encoded receipt gives the receipt back, including a negative timestamp |
| AccountLayout.ReceiptBytesRoundTrip | programs/ecobuild/src/lib.rs:258-267 | every 155-byte string with the right discriminator is the encoding of what it decodes to |
| LittleEndian.FromLeToLe | programs/ecobuild/src/lib.rs:93 | reading back the `n` little-endian bytes of a value below 256^n gives the value |
| LittleEndian.ToLeFromLe | programs/ecobuild/src/lib.rs:116 | every byte string is the little-endian encoding of its own value |
| LittleEndian.ToLeInjective | programs/ecobuild/src/lib.rs:90-94 | distinct project seeds give distinct `to_le_bytes` seeds |
| LittleEndian.I64RoundTrip | programs/ecobuild/src/lib.rs:252 | the two's-complement bytes of an `i64` read back as the same `i64` |
| LittleEndian.I64BytesRoundTrip | programs/ecobuild/src/lib.rs:252 | every 8-byte string is the two's-complement encoding of the `i64` it reads as |
| LittleEndian.U64RoundTrip | programs/ecobuild/src/lib.rs:183 | the little-endian bytes of a `u64` read back as the same `u64` |
| Program.PlayerSeeds | programs/ecobuild/src/lib.rs:70-77 | a profile lives at the two seeds `b"player"` and the authority; `SeedsAreUnambiguous` makes the authority recoverable from them |
| Program.PoolSeeds | programs/ecobuild/src/lib.rs:86-97 | a pool lives at `b"project"`, the authority and the 8-byte little-endian project seed; `PoolSeedReadsBack` and `SeedsAreUnambiguous` make both recoverable from them |
| Program.PoolSeedReadsBack | programs/ecobuild/src/lib.rs:90-94 | the last pool seed, `project_seed.to_le_bytes()`, reads back as the project seed |
| Program.ReceiptSeeds | programs/ecobuild/src/lib.rs:134-145 | a receipt lives at `b"poc"`, the profile's authority and the attestation id, the last two stored verbatim |
| Program.SeedsAreUnambiguous | programs/ecobuild/src/lib.rs:66-147 | the player, pool and receipt seed schemes never yield the same seed list, and each determines its inputs |
| Program.LoadSigningPlayer | programs/ecobuild/src/lib.rs:104-110 | loading succeeds exactly when a profile is stored at the signer's player address and its authority is the signer, and then returns that profile; a missing account fails with `AccountNotInitialized`, an account of another type with `AccountDiscriminatorMismatch`, and a profile with another authority with `ConstraintViolated` |
| Program.Execute | programs/ecobuild/src/lib.rs:11-147 | a successful instruction keeps every existing account, creates accounts only at the addresses it writes, and leaves every account at any other address unchanged |
| Program.ExecutePreservesConsistency | programs/ecobuild/src/lib.rs:11-63 | every instruction keeps each account at the address derived from its own fields, with a positive pool goal and receipt fields that pass validation |
| Program.ConstraintsNeverFail | programs/ecobuild/src/lib.rs:104-118 | in a consistent ledger the `seeds`/`constraint` checks on the player and pool accounts never fail |
| Program.ExecuteFrame | programs/ecobuild/src/lib.rs:11-63 | no account is removed, receipts are never changed, and only the addresses an instruction names are written |
| Program.ProfileAtHome | programs/ecobuild/src/lib.rs:104-108 | in a consistent ledger the profile stored at an authority's player address belongs to that authority |
| Program.InitializePlayerOutcome | programs/ecobuild/src/lib.rs:11-15 | `initialize_player` succeeds exactly when the player address is free, fails with `AccountInUse` otherwise, and then adds exactly a profile of the signer with 0 credits |
| Program.CreatePoolOutcome | programs/ecobuild/src/lib.rs:17-30 | `create_project_pool` succeeds exactly when the pool address is free, the goal is positive and the name has at most 32 bytes; it fails with `AccountInUse`, `InvalidAmount` or `NameTooLong` for the first check that fails; on success the ledger gains exactly the pool address, holding the authority, bump, seed and goal, 0 received credits, the name's byte length and its bytes zero-padded to 32, so that the name reads back |
| Program.ContributeOutcome | programs/ecobuild/src/lib.rs:32-41 | in a consistent ledger, a missing profile or pool fails with `AccountNotInitialized`, one of another type with `AccountDiscriminatorMismatch`, and amount 0 with `InvalidAmount`; otherwise the instruction succeeds exactly when neither counter overflows and fails with `Overflow` when one does; on success exactly the two counters grow by the amount |
| Program.MintReceiptOutcome | programs/ecobuild/src/lib.rs:43-63 | in a consistent ledger, minting succeeds exactly when the signer has a profile, the (authority, attestation id) address is free and the receipt's checks pass; a missing profile fails with `AccountNotInitialized`, an account of another type at the profile address with `AccountDiscriminatorMismatch`, a used address with `AccountInUse`, and a failing receipt check with that check's `ErrorCode`; a successful mint adds exactly the receipt at that address, storing the arguments verbatim |
| Program.TraceKeysGrow | programs/ecobuild/src/lib.rs:11-63 | along any transaction history, the set of existing accounts only grows |
| Program.AtMostOneReceiptPerKey | programs/ecobuild/src/lib.rs:124-145 | in any history, two successful receipt mints never share (authority, attestation id) |
| Utf8.DecodeLeading | programs/ecobuild/src/lib.rs:236-239 | a well-formed sequence decodes to a Unicode scalar value, and its length is the shortest that can hold that value |
| Utf8.Encode | programs/ecobuild/src/lib.rs:213-224 | `as_bytes()` of a name or zone id, and `Buffer.from(string)`: the concatenated UTF-8 forms of the characters, at least one byte per character; `EncodeChar`, `EncodeInjective` and `DecodeEncode` state what defines it |
| Utf8.EncodeChar | apps/verifier/src/solana-client.ts:133 | each character's UTF-8 form is one well-formed sequence of 1 to 4 bytes whose lead byte announces its length, and it decodes back to the character |
| Utf8.EncodeIsValid | programs/ecobuild/src/lib.rs:236-239 | the bytes of every string are well-formed UTF-8, so `from_utf8` accepts any name or zone id that was stored from a `&str` |
| Utf8.EncodeInjective | programs/ecobuild/src/lib.rs:222-224 | distinct strings have distinct UTF-8 bytes, so storing the bytes loses nothing |
| Utf8.Decode | programs/ecobuild/src/lib.rs:236-239 | `from_utf8` of valid UTF-8 gives the string whose encoding is exactly those bytes |
| Utf8.DecodeEncode | programs/ecobuild/src/lib.rs:222-239 | encoding is valid UTF-8 and decoding it gives the string back |
| Utf8.EncodeAscii | apps/verifier/src/solana-client.ts:133 | `Buffer.from` of ASCII text is the byte-per-character string, e.g. the bytes of Rust's `b"player"` |
| JsString.TrimStart | apps/verifier/src/solana-client.ts:50 | the result is a suffix of the input, what was dropped is all whitespace, and it does not start with whitespace |
| JsString.TrimEnd | apps/verifier/src/solana-client.ts:50 | the result is a prefix of the input, what was dropped is all whitespace, and it does not end with whitespace |
| JsString.Trim | apps/verifier/src/solana-client.ts:50 | `trim()` returns a trimmed string no longer than its input, which is the slice of the input starting after its leading whitespace, with only whitespace after it |
| JsString.TrimIsCore | apps/verifier/src/solana-client.ts:50 | `trim()` returns a slice of its input with only whitespace removed on each side, and the slice neither starts nor ends with whitespace |
| JsString.TrimIdempotent | apps/verifier/src/solana-client.ts:50 | trimming a trimmed string changes nothing, so `trim()` is idempotent |
| JsString.TrimPadding | apps/verifier/src/solana-client.ts:50 | any whitespace padding on either side leaves `trim()` unchanged |
| JsString.Lower | apps/verifier/src/vision.ts:121 | `toLowerCase()` keeps the length, maps each character through the one-character mapping, and leaves no capital in the result |
| JsString.LowerOfNoCapitals | apps/verifier/src/vision.ts:121 | a string without capitals is its own lower-case form |
| JsString.LowerProperties | apps/verifier/src/solana-client.ts:50 | `toLowerCase()` is idempotent, never creates or removes whitespace, and commutes with `trim()` |
| JsString.Includes | apps/verifier/src/vision.ts:122-124 | `includes` holds exactly when the needle occurs at some position |
| JsString.MissingCharNotIncluded | apps/verifier/src/vision.ts:122-124 | a string lacking one of the needle's characters does not include the needle |
| WasteTypes.Normalize | apps/verifier/src/solana-client.ts:50 | `toLowerCase().trim()` gives a trimmed string without capitals, no longer than the input |
| WasteTypes.WasteTypeToU8 | apps/verifier/src/solana-client.ts:49-56 | a normalised name that is a map key gets its code, and every other name gets 0 |
| WasteTypes.NameCodes | apps/verifier/src/solana-client.ts:42-47 | each of the codes 1, 2 and 3 is the lookup result of exactly one key; 0 is the result for "plastic" and for every name outside the map |
| WasteTypes.WasteTypeCodes | apps/verifier/src/solana-client.ts:49-56 | the code lies in 0..3; it is 1, 2 or 3 exactly when the normalised name is "glass", "metal" or "paper", and 0 exactly when it is "plastic" or not a key |
| WasteTypes.KnownNames | apps/verifier/src/solana-client.ts:42-56 | each map key maps to its own code, and the classifier's other categories "organic" and "mixed" map to 0 |
| WasteTypes.OnlyNormalizedNameMatters | apps/verifier/src/solana-client.ts:50 | the code depends only on the lower-cased, trimmed name: normalising or lower-casing first changes nothing |
| WasteTypes.PaddingIsIgnored | apps/verifier/src/solana-client.ts:50 | whitespace around a name does not change its code, so " Glass " maps like "glass" |
| WasteTypes.PaddedGlassExample | apps/verifier/src/solana-client.ts:49-53 | " Glass " maps to 1, the glass code |
| WasteTypes.CapitalisedGlassExample | apps/verifier/src/solana-client.ts:49-53 | "Glass" maps to 1 |
| WasteTypes.GlassExample | apps/verifier/src/solana-client.ts:42-53 | "glass" maps to 1 |
| WasteTypes.OrganicExample | apps/verifier/src/solana-client.ts:54-55 | "organic", a classifier category outside the map, maps to 0 (plastic) |
| WasteTypes.CodeIsAcceptedOnChain | apps/verifier/src/solana-client.ts:42-56 | every code the service sends is accepted by `MaterialType::try_from` and is the discriminant of the material it decodes to |
| WasteTypes.ClientSeedsMatchProgram | apps/verifier/src/solana-client.ts:132-135 | the client's profile seed list `[Buffer.from("player"), wallet]` is the program's `[b"player", authority]`, and distinct wallets give distinct seeds |
| Vision.Sanitize | apps/verifier/src/vision.ts:110-113 | confidence is clamped into [0, 1] and unchanged when already inside it; weight becomes max(0, w); an empty category becomes "mixed" and any other is kept verbatim; detection flag and description are untouched |
| Vision.SanitizeFixedPoints | apps/verifier/src/vision.ts:110-113 | sanitising leaves a reply unchanged exactly when it already satisfies the rules, so applying it twice equals applying it once |
| Vision.MockVerdictIsSanitized | apps/verifier/src/vision.ts:56-63 | the fixed verdict already satisfies every sanitising rule |
| Vision.NormalizeMediaType | apps/verifier/src/vision.ts:118-126 | the result is PNG exactly when the lower-cased type contains "png"; GIF when it contains "gif" and not "png"; WebP when it contains "webp" and neither of those; JPEG otherwise |
| Vision.NormalizeMediaTypeName | apps/verifier/src/vision.ts:118-126 | normalising one of the four returned media-type strings gives that media type back, so `normalizeMediaType` is idempotent |
| Vision.NormalizeMediaTypeIgnoresCase | apps/verifier/src/vision.ts:121 | the media type does not depend on the case of the declared MIME type |
| Vision.ClassifyImage | apps/verifier/src/vision.ts:49-116 | without a client the result is the fixed verdict; every returned verdict is sanitised; with a client the classifier is asked with the normalised media type, its error is passed on unchanged, and its reply is returned sanitised |
| Vision.MockModeIgnoresInput | apps/verifier/src/vision.ts:54-64 | without a client the verdict is the same for every image, MIME type and classifier: detected, "plastic", 5 lbs, confidence 0.85 |
| WebConstants.ExplorerTxUrl | apps/web/src/lib/constants.ts:19-24 | the transaction link is the devnet explorer's `/tx/` path around the signature, which sits at a fixed offset and is recoverable by length |
| WebConstants.ExplorerAddrUrl | apps/web/src/lib/constants.ts:19-28 | the address link is the devnet explorer's `/address/` path around the address, which sits at a fixed offset and is recoverable by length |
| WebConstants.ParseExplorerUrl | apps/web/src/lib/constants.ts:19-28 | a URL parsed as a transaction or address link is exactly the builder's output for the parsed argument |
| WebConstants.ParseInvertsBuilders | apps/web/src/lib/constants.ts:19-28 | parsing a built transaction or address URL recovers the link and argument it was built from |
| WebConstants.ExplorerUrlsAreUnambiguous | apps/web/src/lib/constants.ts:22-28 | each builder is injective, and no transaction URL equals an address URL |
| WebConstants.CraftingTiersAscend | apps/web/src/lib/constants.ts:30-36 | the tier thresholds are positive and strictly increasing |
| WebConstants.AscendingPairwise | apps/web/src/lib/constants.ts:30-36 | in an ascending tier table any earlier tier needs fewer Bricks than any later one |
| WebConstants.UnlockedIsPrefix | apps/web/src/app/inventory/page.tsx:200-201 | over an ascending table, the tiers a balance unlocks (`bricks >= tier.bricks`) are exactly the first `CountUnlocked` of them |

## Left out

- Framework account plumbing is reduced to what decides success or failure:
  - an `init` address already in use;
  - a missing account;
  - an account whose discriminator names another account type;
  - a `seeds` or `constraint` mismatch.

  In the model the checks run account by account, in struct order. The framework first loads every existing account, then creates the `init` accounts, and only then checks `seeds` and `constraint`. The two orders report different errors only when two checks fail in one transaction. In a consistent ledger the `seeds` and `constraint` checks never fail, so there the errors agree.
  An account owned by another program (`AccountOwnedByWrongProgram`) and one shorter than its discriminator (`AccountDiscriminatorNotFound`) cannot occur in a ledger that holds only this program's records, so they are not modelled.

  Rent, space allocation, payer transfers, signer verification and bump checks are not modelled. They are runtime services, and canonical bumps are given to the instructions as arguments.
- Program-derived address hashing (`find_program_address`, `derive_pda`) is not modelled. It is a SHA-256 search. The ledger is keyed by the seed list itself, which treats the derivation as an injective function of its seeds.
- The account discriminator is a parameter of the encoders. It is a hash prefix computed by the framework.
- The token mint, BLOCK-to-Brick conversion and global configuration are not modelled. Those instructions and fields do not exist in `programs/ecobuild/src/lib.rs`.
- The request validator behind `POST /attest` and its SHA-256 attestation id are not modelled. In `apps/verifier/src/server.ts:16-19` the handler is a stub that returns "not implemented yet".
- The reward orchestration is not modelled: minimum confidence and rounding of the weight into a quantity. No code for it exists in the source files.
- Network and bootstrap code in the Solana client is not modelled: RPC calls, keypair loading, IDL discovery, `mintBlocks`, `convertToBrick`, `getPlayerStats`, `getGlobalStats` and `initializeConfig`. This is I/O.
- The external classifier call is an oracle parameter of `Vision.ClassifyImage`. The request it sends, the code-fence stripping and `JSON.parse` are not modelled, because they are foreign and untyped.
- Vision.Sanitize: numbers are finite reals. A missing or non-numeric confidence (NaN through `Math.min`/`Math.max`) is not modelled.
- WasteTypes.WasteTypeToU8: the map has exactly its four own keys. JavaScript's `in` also matches inherited names. "constructor" and "__proto__" are already lower-case, so they would return a non-number. The model does not follow that.
- JsString.LowerChar: `toLowerCase` is modelled for ASCII capitals and the Kelvin sign, the only other character whose lower-case form is ASCII. Every other character maps to itself.
  - Other characters lower-case to non-ASCII characters.
  - U+0130 is the exception: it becomes "i" followed by U+0307.
  - Lower-casing never creates or removes whitespace.

  So neither the result of `wasteTypeToU8` nor that of `normalizeMediaType` can differ.
- JavaScript strings are sequences of code points, so lone UTF-16 surrogates are not modelled.
- All user-interface code is not modelled: React pages and components, hooks, fetch wrappers and progress-bar percentages. The crafting-tier unlock test of the inventory page is the one exception.

=== FILE: account_layout.dfy ===
/** The byte layout of the three program-owned accounts. Each `SIZE` constant
    of the program is the sum of its field widths; the encoders below lay the
    fields out in declaration order (an 8-byte account discriminator, then
    each field in little-endian Borsh form) and show that every record fits
    its `SIZE` exactly and decodes back unchanged. The discriminator is a
    hash prefix computed by the framework, so it is a parameter here. */
module AccountLayout {
  import opened Base
  import opened LittleEndian
  import opened Ecobuild

  type Discriminator = s: Bytes | |s| == 8 witness seq(8, _ => 0)

  const DISCRIMINATOR_LEN: nat := 8
  const PUBKEY_LEN: nat := 32

  /** `PlayerProfile::SIZE`: discriminator, authority, bump, total credits. */
  const PLAYER_PROFILE_SIZE: nat := DISCRIMINATOR_LEN + PUBKEY_LEN + 1 + 8

  /** `ProjectPool::SIZE`: discriminator, authority, bump, seed, goal,
      received, name length, name bytes. */
  const PROJECT_POOL_SIZE: nat := DISCRIMINATOR_LEN + PUBKEY_LEN + 1 + 8 + 8 + 8 + 1 + NAME_MAX_LEN

  /** `ProofOfCollectionReceipt::SIZE`: discriminator, player, bump,
      attestation id, photo hash, zone id length, zone id bytes, material,
      quantity, timestamp. */
  const RECEIPT_SIZE: nat := DISCRIMINATOR_LEN + PUBKEY_LEN + 1 + 32 + 32 + 1 + ZONE_ID_MAX_LEN + 1 + 8 + 8

  /** Slicing inside the first part of a concatenation reads that part. */
  lemma PrefixSlices(a: Bytes, b: Bytes)
    ensures forall i, j :: 0 <= i <= j <= |a| ==> (a + b)[i..j] == a[i..j]
    ensures forall i :: 0 <= i < |a| ==> (a + b)[i] == a[i]
  {
  }

  // ---------------------------------------------------------------------------
  // PlayerProfile
  // ---------------------------------------------------------------------------

  function EncodePlayer(d: Discriminator, p: PlayerProfile): (r: Bytes)
    ensures |r| == PLAYER_PROFILE_SIZE == 49
    ensures r[..DISCRIMINATOR_LEN] == d
  {
    d + p.authority + [p.bump] + U64ToLe(p.totalCredits)
  }

  /** Reading a profile from account data; `None` when the data is too short
      or carries another account type's discriminator. */
  function DecodePlayer(d: Discriminator, data: Bytes): (r: Option<PlayerProfile>)
    ensures r.Some? <==> |data| >= PLAYER_PROFILE_SIZE && data[..DISCRIMINATOR_LEN] == d
  {
    if |data| < PLAYER_PROFILE_SIZE || data[..DISCRIMINATOR_LEN] != d then None
    else Some(PlayerProfile(data[8..40], data[40], U64FromLe(data[41..49])))
  }

  lemma PlayerRoundTrip(d: Discriminator, p: PlayerProfile)
    ensures DecodePlayer(d, EncodePlayer(d, p)) == Some(p)
  {
    var e := EncodePlayer(d, p);
    assert e[8..40] == p.authority;
    assert e[40] == p.bump;
    assert e[41..49] == U64ToLe(p.totalCredits);
    U64RoundTrip(p.totalCredits);
  }

  /** Every account-sized byte string that decodes is the encoding of what it
      decodes to: the layout has no slack bytes. */
  lemma PlayerBytesRoundTrip(d: Discriminator, data: Bytes)
    requires |data| == PLAYER_PROFILE_SIZE
    requires DecodePlayer(d, data).Some?
    ensures EncodePlayer(d, DecodePlayer(d, data).value) == data
  {
    U64BytesRoundTrip(data[41..49]);
    assert data == data[..8] + data[8..40] + [data[40]] + data[41..49];
  }

  // ---------------------------------------------------------------------------
  // ProjectPool
  // ---------------------------------------------------------------------------

  function EncodePool(d: Discriminator, p: ProjectPool): (r: Bytes)
    ensures |r| == PROJECT_POOL_SIZE == 98
    ensures r[..DISCRIMINATOR_LEN] == d
  {
    d + p.authority + [p.bump] + U64ToLe(p.seed) + U64ToLe(p.goalCredits) + U64ToLe(p.receivedCredits)
    + [p.nameLen] + p.name
  }

  function DecodePool(d: Discriminator, data: Bytes): (r: Option<ProjectPool>)
    ensures r.Some? <==> |data| >= PROJECT_POOL_SIZE && data[..DISCRIMINATOR_LEN] == d
  {
    if |data| < PROJECT_POOL_SIZE || data[..DISCRIMINATOR_LEN] != d then None
    else Some(ProjectPool(
      data[8..40], data[40], U64FromLe(data[41..49]), U64FromLe(data[49..57]), U64FromLe(data[57..65]),
      data[65], data[66..98]))
  }

  lemma PoolRoundTrip(d: Discriminator, p: ProjectPool)
    ensures DecodePool(d, EncodePool(d, p)) == Some(p)
  {
    var e := EncodePool(d, p);
    assert e[8..40] == p.authority;
    assert e[40] == p.bump;
    assert e[41..49] == U64ToLe(p.seed);
    assert e[49..57] == U64ToLe(p.goalCredits);
    assert e[57..65] == U64ToLe(p.receivedCredits);
    assert e[65] == p.nameLen;
    assert e[66..98] == p.name;
    U64RoundTrip(p.seed);
    U64RoundTrip(p.goalCredits);
    U64RoundTrip(p.receivedCredits);
  }

  lemma PoolBytesRoundTrip(d: Discriminator, data: Bytes)
    requires |data| == PROJECT_POOL_SIZE
    requires DecodePool(d, data).Some?
    ensures EncodePool(d, DecodePool(d, data).value) == data
  {
    U64BytesRoundTrip(data[41..49]);
    U64BytesRoundTrip(data[49..57]);
    U64BytesRoundTrip(data[57..65]);
    assert data == data[..8] + data[8..40] + [data[40]] + data[41..49] + data[49..57] + data[57..65]
      + [data[65]] + data[66..98];
  }

  // ---------------------------------------------------------------------------
  // ProofOfCollectionReceipt
  // ---------------------------------------------------------------------------

  function EncodeReceipt(d: Discriminator, r: Receipt): (e: Bytes)
    ensures |e| == RECEIPT_SIZE == 155
    ensures e[..DISCRIMINATOR_LEN] == d
  {
    d + r.player + [r.bump] + r.attestationId + r.photoHash + [r.zoneIdLen] + r.zoneId
    + [r.materialType] + U64ToLe(r.quantity) + I64ToLe(r.timestamp)
  }

  function DecodeReceipt(d: Discriminator, data: Bytes): (r: Option<Receipt>)
    ensures r.Some? <==> |data| >= RECEIPT_SIZE && data[..DISCRIMINATOR_LEN] == d
  {
    if |data| < RECEIPT_SIZE || data[..DISCRIMINATOR_LEN] != d then None
    else Some(Receipt(
      data[8..40], data[40], data[41..73], data[73..105], data[105], data[106..138],
      data[138], U64FromLe(data[139..147]), I64FromLe(data[147..155])))
  }

  lemma ReceiptRoundTrip(d: Discriminator, r: Receipt)
    ensures DecodeReceipt(d, EncodeReceipt(d, r)) == Some(r)
  {
    var e := EncodeReceipt(d, r);
    // The fixed-width prefix, then the two integers.
    var head := d + r.player + [r.bump] + r.attestationId + r.photoHash + [r.zoneIdLen] + r.zoneId
      + [r.materialType];
    assert |head| == 139;
    assert e == head + (U64ToLe(r.quantity) + I64ToLe(r.timestamp));
    PrefixSlices(head, U64ToLe(r.quantity) + I64ToLe(r.timestamp));
    assert e[139..147] == U64ToLe(r.quantity);
    assert e[147..155] == I64ToLe(r.timestamp);
    assert e[8..40] == head[8..40] == r.player;
    assert e[40] == head[40] == r.bump;
    assert e[41..73] == head[41..73] == r.attestationId;
    assert e[73..105] == head[73..105] == r.photoHash;
    assert e[105] == head[105] == r.zoneIdLen;
    assert e[106..138] == head[106..138] == r.zoneId;
    assert e[138] == head[138] == r.materialType;
    U64RoundTrip(r.quantity);
    I64RoundTrip(r.timestamp);
  }

  lemma ReceiptBytesRoundTrip(d: Discriminator, data: Bytes)
    requires |data| == RECEIPT_SIZE
    requires DecodeReceipt(d, data).Some?
    ensures EncodeReceipt(d, DecodeReceipt(d, data).value) == data
  {
    U64BytesRoundTrip(data[139..147]);
    I64BytesRoundTrip(data[147..155]);
    assert data == data[..8] + data[8..40] + [data[40]] + data[41..73] + data[73..105] + [data[105]]
      + data[106..138] + [data[138]] + data[139..147] + data[147..155];
  }
}

=== FILE: base.dfy ===
/** Fixed-width integer ranges, byte strings and the Option/Result wrappers
    shared by the on-chain model and the off-chain helpers. Rust's `u8`,
    `u64` and `i64` become subset types of `int`; arithmetic that could leave
    the range is always checked explicitly by the callers. */
module Base {

  const U8_MAX: int := 0xFF
  const U64_MAX: int := 0xFFFF_FFFF_FFFF_FFFF
  const I64_MIN: int := -0x8000_0000_0000_0000
  const I64_MAX: int := 0x7FFF_FFFF_FFFF_FFFF

  type u8 = x: int | 0 <= x <= 0xFF
  type u64 = x: int | 0 <= x <= 0xFFFF_FFFF_FFFF_FFFF
  type i64 = x: int | -0x8000_0000_0000_0000 <= x <= 0x7FFF_FFFF_FFFF_FFFF

  type Bytes = seq<u8>

  /** A Rust `[u8; 32]`: attestation ids, photo hashes and the fixed name buffers. */
  type Bytes32 = s: Bytes | |s| == 32 witness seq(32, _ => 0)

  /** A Solana public key is 32 raw bytes. */
  type Pubkey = Bytes32

  datatype Option<+T> = None | Some(value: T)

  datatype Result<+T, +E> = Ok(value: T) | Err(error: E)

  /** `n` zero bytes, as produced by `[0u8; n]`. */
  function Zeros(n: nat): (r: Bytes)
    ensures |r| == n
    ensures forall i :: 0 <= i < n ==> r[i] == 0
  {
    seq(n, _ => 0)
  }

  /** The bytes of an ASCII literal such as Rust's `b"player"`. */
  function Ascii(s: string): (r: Bytes)
    requires forall i :: 0 <= i < |s| ==> s[i] as int < 0x80
    ensures |r| == |s|
    ensures forall i :: 0 <= i < |s| ==> r[i] == s[i] as int
  {
    seq(|s|, i requires 0 <= i < |s| => s[i] as int)
  }
}

=== FILE: ecobuild.dfy ===
/** The account records of the `ecobuild` on-chain program and the logic of
    their `initialize` and counter-update methods. Every method that takes
    `&mut self` in the program is a pure function from the prior record and
    the arguments to either the new record or the `ErrorCode` it returns;
    each of these methods makes all its checks before its first write, so an
    error leaves the record as it was. Rust strings are modelled as `string`,
    whose characters are Unicode scalar values like Rust's `char`; their byte
    form is the UTF-8 encoding. */
module Ecobuild {
  import opened Base
  import Utf8

  datatype ErrorCode =
    | InvalidAmount
    | NameTooLong
    | ZoneIdTooLong
    | InvalidMaterialType
    | InvalidTimestamp
    | Overflow

  /** `ProjectPool::NAME_MAX_LEN` and `ProofOfCollectionReceipt::ZONE_ID_MAX_LEN`. */
  const NAME_MAX_LEN: nat := 32
  const ZONE_ID_MAX_LEN: nat := 32

  /** `u64::checked_add`: the sum, or nothing when it would exceed `u64::MAX`. */
  function CheckedAdd(a: u64, b: u64): (r: Option<u64>)
    ensures r.Some? <==> a + b <= U64_MAX
    ensures r.Some? ==> r.value == a + b
  {
    if a + b <= U64_MAX then Some(a + b) else None
  }

  // ---------------------------------------------------------------------------
  // Material types
  // ---------------------------------------------------------------------------

  datatype MaterialType = Plastic | Glass | Metal | Paper

  /** The `#[repr(u8)]` discriminant of each material. */
  function Discriminant(m: MaterialType): (r: u8)
    ensures r <= 3
  {
    match m
    case Plastic => 0
    case Glass => 1
    case Metal => 2
    case Paper => 3
  }

  /** `MaterialType::try_from`: accepts exactly the discriminants 0..3. */
  function MaterialFromU8(value: u8): (r: Result<MaterialType, ErrorCode>)
    ensures r.Ok? <==> value <= 3
    ensures r.Err? ==> r.error == InvalidMaterialType
  {
    match value
    case 0 => Ok(Plastic)
    case 1 => Ok(Glass)
    case 2 => Ok(Metal)
    case 3 => Ok(Paper)
    case _ => Err(InvalidMaterialType)
  }

  /** Decoding a material's discriminant gives the material back, and every
      accepted byte is the discriminant of the material it decodes to. */
  lemma MaterialRoundTrip(m: MaterialType, value: u8)
    ensures MaterialFromU8(Discriminant(m)) == Ok(m)
    ensures MaterialFromU8(value).Ok? ==> Discriminant(MaterialFromU8(value).value) == value
  {
  }

  // ---------------------------------------------------------------------------
  // Fixed-size text buffers
  // ---------------------------------------------------------------------------

  /** A string copied into a zero-filled 32-byte buffer: `buf = [0u8; 32];
      buf[..len].copy_from_slice(bytes)`. */
  function Padded(text: Bytes): (r: Bytes32)
    requires |text| <= 32
    ensures r[..|text|] == text
    ensures forall i :: |text| <= i < 32 ==> r[i] == 0
  {
    text + Zeros(32 - |text|)
  }

  /** Reading a buffer back as `String::from_utf8(buf[..len].to_vec())
      .unwrap_or_default()`. `None` stands for the panic of slicing past the
      end of the buffer; bytes that are not UTF-8 read as the empty string. */
  function ReadText(buf: Bytes32, len: u8): (r: Option<string>)
    ensures r.None? <==> len > 32
    ensures r.Some? && Utf8.Valid(buf[..len]) ==> Utf8.Encode(r.value) == buf[..len]
    ensures r.Some? && !Utf8.Valid(buf[..len]) ==> r.value == ""
  {
    if len > 32 then None
    else if Utf8.Valid(buf[..len]) then Some(Utf8.Decode(buf[..len]))
    else Some("")
  }

  /** A string stored with `Padded` as its UTF-8 bytes reads back unchanged. */
  lemma ReadPadded(text: string)
    requires |Utf8.Encode(text)| <= 32
    ensures ReadText(Padded(Utf8.Encode(text)), |Utf8.Encode(text)|) == Some(text)
  {
    var bytes := Utf8.Encode(text);
    assert Padded(bytes)[..|bytes|] == bytes;
    Utf8.DecodeEncode(text);
  }

  // ---------------------------------------------------------------------------
  // PlayerProfile
  // ---------------------------------------------------------------------------

  datatype PlayerProfile = PlayerProfile(authority: Pubkey, bump: u8, totalCredits: u64)

  /** `PlayerProfile::initialize`: always succeeds and resets the credit
      counter, whatever the record held before. */
  function InitializePlayer(profile: PlayerProfile, authority: Pubkey, bump: u8): (r: Result<PlayerProfile, ErrorCode>)
    ensures r.Ok?
    ensures r.value.authority == authority && r.value.bump == bump
    ensures r.value.totalCredits == 0
  {
    Ok(profile.(authority := authority, bump := bump, totalCredits := 0))
  }

  /** `PlayerProfile::add_credits`: checked addition to `total_credits`. */
  function AddCredits(profile: PlayerProfile, amount: u64): (r: Result<PlayerProfile, ErrorCode>)
    ensures r.Ok? <==> profile.totalCredits + amount <= U64_MAX
    ensures r.Ok? ==> r.value == profile.(totalCredits := profile.totalCredits + amount)
    ensures r.Err? ==> r.error == Overflow
  {
    match CheckedAdd(profile.totalCredits, amount)
    case None => Err(Overflow)
    case Some(sum) => Ok(profile.(totalCredits := sum))
  }

  // ---------------------------------------------------------------------------
  // ProjectPool
  // ---------------------------------------------------------------------------

  datatype ProjectPool = ProjectPool(
    authority: Pubkey,
    bump: u8,
    seed: u64,
    goalCredits: u64,
    receivedCredits: u64,
    nameLen: u8,
    name: Bytes32)

  /** The checks of `ProjectPool::initialize` that `goal` and `name` fail,
      in the order the method makes them. */
  function PoolViolations(goal: u64, name: string): (r: seq<ErrorCode>)
    ensures InvalidAmount in r <==> goal == 0
    ensures NameTooLong in r <==> |Utf8.Encode(name)| > NAME_MAX_LEN
  {
    (if goal == 0 then [InvalidAmount] else [])
    + (if |Utf8.Encode(name)| > NAME_MAX_LEN then [NameTooLong] else [])
  }

  /** `ProjectPool::initialize`. The length limit is on the name's UTF-8
      bytes, not on its characters. */
  function InitializePool(pool: ProjectPool, authority: Pubkey, bump: u8, seed: u64, goal: u64, name: string)
    : (r: Result<ProjectPool, ErrorCode>)
    ensures r.Ok? <==> goal > 0 && |Utf8.Encode(name)| <= NAME_MAX_LEN
    ensures r.Ok? ==>
      var bytes := Utf8.Encode(name);
      && r.value.authority == authority
      && r.value.bump == bump
      && r.value.seed == seed
      && r.value.goalCredits == goal
      && r.value.receivedCredits == 0
      && r.value.nameLen == |bytes|
      && r.value.name[..|bytes|] == bytes
      && (forall i :: |bytes| <= i < 32 ==> r.value.name[i] == 0)
  {
    var bytes := Utf8.Encode(name);
    if goal == 0 then Err(InvalidAmount)
    else if |bytes| > NAME_MAX_LEN then Err(NameTooLong)
    else Ok(ProjectPool(authority, bump, seed, goal, 0, |bytes|, Padded(bytes)))
  }

  /** `InitializePool` fails exactly when some check fails, and then with the
      first failing check in program order: the goal before the name. */
  lemma PoolReportsFirstViolation(pool: ProjectPool, authority: Pubkey, bump: u8, seed: u64, goal: u64, name: string)
    ensures InitializePool(pool, authority, bump, seed, goal, name).Err? <==> PoolViolations(goal, name) != []
    ensures InitializePool(pool, authority, bump, seed, goal, name).Err? ==>
      InitializePool(pool, authority, bump, seed, goal, name).error == PoolViolations(goal, name)[0]
  {
  }

  /** `ProjectPool::record_contribution`: checked addition to `received_credits`. */
  function RecordContribution(pool: ProjectPool, amount: u64): (r: Result<ProjectPool, ErrorCode>)
    ensures r.Ok? <==> pool.receivedCredits + amount <= U64_MAX
    ensures r.Ok? ==> r.value == pool.(receivedCredits := pool.receivedCredits + amount)
    ensures r.Err? ==> r.error == Overflow
  {
    match CheckedAdd(pool.receivedCredits, amount)
    case None => Err(Overflow)
    case Some(sum) => Ok(pool.(receivedCredits := sum))
  }

  /** `ProjectPool::name`: the stored bytes as a string; `None` when the
      stored length exceeds the buffer. */
  function PoolName(pool: ProjectPool): (r: Option<string>)
    ensures r.None? <==> pool.nameLen > NAME_MAX_LEN
    ensures r.Some? && Utf8.Valid(pool.name[..pool.nameLen]) ==>
      Utf8.Encode(r.value) == pool.name[..pool.nameLen]
    ensures r.Some? && !Utf8.Valid(pool.name[..pool.nameLen]) ==> r.value == ""
  {
    ReadText(pool.name, pool.nameLen)
  }

  /** A pool initialised with a name reads that name back. */
  lemma PoolNameRoundTrip(pool: ProjectPool, authority: Pubkey, bump: u8, seed: u64, goal: u64, name: string)
    requires InitializePool(pool, authority, bump, seed, goal, name).Ok?
    ensures PoolName(InitializePool(pool, authority, bump, seed, goal, name).value) == Some(name)
  {
    ReadPadded(name);
  }

  // ---------------------------------------------------------------------------
  // contribute_credits
  // ---------------------------------------------------------------------------

  /** The handler of the `contribute_credits` instruction: a zero amount is
      refused before either account is touched; otherwise the player's
      `total_credits` and then the pool's `received_credits` grow by the
      amount. The instruction is atomic: when the pool overflows after the
      player was credited, the runtime discards both writes. */
  function ContributeCredits(player: PlayerProfile, pool: ProjectPool, amount: u64)
    : (r: Result<(PlayerProfile, ProjectPool), ErrorCode>)
    ensures amount == 0 ==> r == Err(InvalidAmount)
    ensures r.Ok? <==>
      amount > 0 && player.totalCredits + amount <= U64_MAX && pool.receivedCredits + amount <= U64_MAX
    ensures r.Err? && amount > 0 ==> r.error == Overflow
    ensures r.Ok? ==>
      && r.value.0 == player.(totalCredits := player.totalCredits + amount)
      && r.value.1 == pool.(receivedCredits := pool.receivedCredits + amount)
  {
    if amount == 0 then Err(InvalidAmount)
    else
      match AddCredits(player, amount)
      case Err(e) => Err(e)
      case Ok(player') =>
        match RecordContribution(pool, amount)
        case Err(e) => Err(e)
        case Ok(pool') => Ok((player', pool'))
  }

  // ---------------------------------------------------------------------------
  // ProofOfCollectionReceipt
  // ---------------------------------------------------------------------------

  datatype Receipt = Receipt(
    player: Pubkey,
    bump: u8,
    attestationId: Bytes32,
    photoHash: Bytes32,
    zoneIdLen: u8,
    zoneId: Bytes32,
    materialType: u8,
    quantity: u64,
    timestamp: i64)

  /** The checks of `ProofOfCollectionReceipt::initialize` that the arguments
      fail, in the order the method makes them. */
  function ReceiptViolations(zoneId: string, materialType: u8, quantity: u64, timestamp: i64): (r: seq<ErrorCode>)
    ensures InvalidAmount in r <==> quantity == 0
    ensures InvalidTimestamp in r <==> timestamp <= 0
    ensures ZoneIdTooLong in r <==> |Utf8.Encode(zoneId)| > ZONE_ID_MAX_LEN
    ensures InvalidMaterialType in r <==> materialType > 3
  {
    (if quantity == 0 then [InvalidAmount] else [])
    + (if timestamp <= 0 then [InvalidTimestamp] else [])
    + (if |Utf8.Encode(zoneId)| > ZONE_ID_MAX_LEN then [ZoneIdTooLong] else [])
    + (if materialType > 3 then [InvalidMaterialType] else [])
  }

  /** `ProofOfCollectionReceipt::initialize`. */
  function InitializeReceipt(
    receipt: Receipt, player: Pubkey, bump: u8, attestationId: Bytes32, photoHash: Bytes32,
    zoneId: string, materialType: u8, quantity: u64, timestamp: i64)
    : (r: Result<Receipt, ErrorCode>)
    ensures r == Err(InvalidAmount) <==> quantity == 0
    ensures r == Err(InvalidTimestamp) <==> quantity > 0 && timestamp <= 0
    ensures r == Err(ZoneIdTooLong) <==>
      quantity > 0 && timestamp > 0 && |Utf8.Encode(zoneId)| > ZONE_ID_MAX_LEN
    ensures r == Err(InvalidMaterialType) <==>
      quantity > 0 && timestamp > 0 && |Utf8.Encode(zoneId)| <= ZONE_ID_MAX_LEN && materialType > 3
    ensures r.Ok? <==>
      quantity > 0 && timestamp > 0 && |Utf8.Encode(zoneId)| <= ZONE_ID_MAX_LEN && materialType <= 3
    ensures r.Ok? ==>
      var bytes := Utf8.Encode(zoneId);
      && r.value.player == player
      && r.value.bump == bump
      && r.value.attestationId == attestationId
      && r.value.photoHash == photoHash
      && r.value.zoneIdLen == |bytes|
      && r.value.zoneId[..|bytes|] == bytes
      && (forall i :: |bytes| <= i < 32 ==> r.value.zoneId[i] == 0)
      && r.value.materialType == materialType
      && r.value.quantity == quantity
      && r.value.timestamp == timestamp
  {
    var bytes := Utf8.Encode(zoneId);
    if quantity == 0 then Err(InvalidAmount)
    else if timestamp <= 0 then Err(InvalidTimestamp)
    else if |bytes| > ZONE_ID_MAX_LEN then Err(ZoneIdTooLong)
    else match MaterialFromU8(materialType)
      case Err(e) => Err(e)
      case Ok(_) =>
        Ok(Receipt(player, bump, attestationId, photoHash, |bytes|, Padded(bytes), materialType, quantity, timestamp))
  }

  /** `InitializeReceipt` fails exactly when some check fails, and then with
      the first failing check: quantity, timestamp, zone id, material. */
  lemma ReceiptReportsFirstViolation(
    receipt: Receipt, player: Pubkey, bump: u8, attestationId: Bytes32, photoHash: Bytes32,
    zoneId: string, materialType: u8, quantity: u64, timestamp: i64)
    ensures var r := InitializeReceipt(receipt, player, bump, attestationId, photoHash, zoneId, materialType, quantity, timestamp);
      && (r.Err? <==> ReceiptViolations(zoneId, materialType, quantity, timestamp) != [])
      && (r.Err? ==> r.error == ReceiptViolations(zoneId, materialType, quantity, timestamp)[0])
  {
  }

  /** `ProofOfCollectionReceipt::zone_id`: the stored bytes as a string;
      `None` when the stored length exceeds the buffer. */
  function ReceiptZoneId(receipt: Receipt): (r: Option<string>)
    ensures r.None? <==> receipt.zoneIdLen > ZONE_ID_MAX_LEN
    ensures r.Some? && Utf8.Valid(receipt.zoneId[..receipt.zoneIdLen]) ==>
      Utf8.Encode(r.value) == receipt.zoneId[..receipt.zoneIdLen]
    ensures r.Some? && !Utf8.Valid(receipt.zoneId[..receipt.zoneIdLen]) ==> r.value == ""
  {
    ReadText(receipt.zoneId, receipt.zoneIdLen)
  }

  /** A receipt initialised with a zone id reads that zone id back. */
  lemma ZoneIdRoundTrip(
    receipt: Receipt, player: Pubkey, bump: u8, attestationId: Bytes32, photoHash: Bytes32,
    zoneId: string, materialType: u8, quantity: u64, timestamp: i64)
    requires InitializeReceipt(receipt, player, bump, attestationId, photoHash, zoneId, materialType, quantity, timestamp).Ok?
    ensures ReceiptZoneId(InitializeReceipt(receipt, player, bump, attestationId, photoHash, zoneId, materialType, quantity, timestamp).value)
      == Some(zoneId)
  {
    ReadPadded(zoneId);
  }

  /** The `initialize` methods overwrite every field: their outcome does not
      depend on what the record held before. */
  lemma InitializeIgnoresPriorState(
    p1: PlayerProfile, p2: PlayerProfile, q1: ProjectPool, q2: ProjectPool, r1: Receipt, r2: Receipt,
    key: Pubkey, bump: u8, seed: u64, goal: u64, text: string,
    attestationId: Bytes32, photoHash: Bytes32, materialType: u8, quantity: u64, timestamp: i64)
    ensures InitializePlayer(p1, key, bump) == InitializePlayer(p2, key, bump)
    ensures InitializePool(q1, key, bump, seed, goal, text) == InitializePool(q2, key, bump, seed, goal, text)
    ensures InitializeReceipt(r1, key, bump, attestationId, photoHash, text, materialType, quantity, timestamp)
      == InitializeReceipt(r2, key, bump, attestationId, photoHash, text, materialType, quantity, timestamp)
  {
  }
}

=== FILE: js_string.dfy ===
/** The JavaScript string operations the verifier service relies on:
    `trim`, `toLowerCase` and `includes`. Strings are sequences of Unicode
    scalar values. */
module JsString {

  /** ECMAScript WhiteSpace and LineTerminator code points: the characters
      `String.prototype.trim` removes. */
  predicate IsWhitespace(c: char)
  {
    || c == '\t' || c == '\n' || c == '\U{B}' || c == '\U{C}' || c == '\r' || c == ' '
    || c == '\U{A0}' || c == '\U{1680}' || ('\U{2000}' <= c <= '\U{200A}')
    || c == '\U{2028}' || c == '\U{2029}' || c == '\U{202F}' || c == '\U{205F}'
    || c == '\U{3000}' || c == '\U{FEFF}'
  }

  predicate AllWhitespace(s: string)
  {
    forall i :: 0 <= i < |s| ==> IsWhitespace(s[i])
  }

  /** `s` with its leading whitespace removed. */
  function TrimStart(s: string): (r: string)
    ensures |r| <= |s| && r == s[|s| - |r|..]
    ensures AllWhitespace(s[..|s| - |r|])
    ensures |r| > 0 ==> !IsWhitespace(r[0])
    decreases |s|
  {
    if |s| > 0 && IsWhitespace(s[0]) then TrimStart(s[1..]) else s
  }

  /** `s` with its trailing whitespace removed. */
  function TrimEnd(s: string): (r: string)
    ensures |r| <= |s| && r == s[..|r|]
    ensures AllWhitespace(s[|r|..])
    ensures |r| > 0 ==> !IsWhitespace(r[|r| - 1])
    decreases |s|
  {
    if |s| > 0 && IsWhitespace(s[|s| - 1]) then TrimEnd(s[..|s| - 1]) else s
  }

  /** `r` is the slice of `s` at `i`, with only whitespace before and after it. */
  predicate CoreAt(s: string, i: nat, r: string)
  {
    && i + |r| <= |s| && r == s[i..i + |r|]
    && AllWhitespace(s[..i]) && AllWhitespace(s[i + |r|..])
  }

  /** `String.prototype.trim`: the slice of `s` that is left after dropping
      its leading and its trailing whitespace, which is itself trimmed. */
  function Trim(s: string): (r: string)
    ensures |r| <= |s|
    ensures Trimmed(r)
    ensures CoreAt(s, |s| - |TrimStart(s)|, r)
  {
    var t := TrimStart(s);
    var r := TrimEnd(t);
    TrimSlice(s, t, r);
    r
  }

  /** Dropping leading whitespace and then trailing whitespace leaves a
      trimmed slice of `s` with only whitespace on either side; stated over
      the two intermediate results so that neither function unfolds. */
  lemma TrimSlice(s: string, t: string, r: string)
    requires |t| <= |s| && t == s[|s| - |t|..] && AllWhitespace(s[..|s| - |t|])
    requires |t| > 0 ==> !IsWhitespace(t[0])
    requires |r| <= |t| && r == t[..|r|] && AllWhitespace(t[|r|..])
    requires |r| > 0 ==> !IsWhitespace(r[|r| - 1])
    ensures Trimmed(r)
    ensures CoreAt(s, |s| - |t|, r)
  {
    var i := |s| - |t|;
    assert s[i + |r|..] == t[|r|..];
    assert |r| > 0 ==> r[0] == t[0];
  }

  /** A string is trimmed when it neither starts nor ends with whitespace. */
  predicate Trimmed(s: string)
  {
    |s| > 0 ==> !IsWhitespace(s[0]) && !IsWhitespace(s[|s| - 1])
  }

  /** `Trim(s)` is the slice of `s` that drops only whitespace, from both
      ends, and leaves a trimmed string. */
  lemma TrimIsCore(s: string)
    ensures Trimmed(Trim(s))
    ensures exists i, j ::
      0 <= i <= j <= |s| && Trim(s) == s[i..j] && AllWhitespace(s[..i]) && AllWhitespace(s[j..])
  {
    var i := |s| - |TrimStart(s)|;
    assert CoreAt(s, i, Trim(s));
    var j := i + |Trim(s)|;
    assert Trim(s) == s[i..j] && AllWhitespace(s[..i]) && AllWhitespace(s[j..]);
  }

  lemma {:induction false} TrimStartOfTrimmed(s: string)
    requires |s| == 0 || !IsWhitespace(s[0])
    ensures TrimStart(s) == s
  {
  }

  lemma {:induction false} TrimEndOfTrimmed(s: string)
    requires |s| == 0 || !IsWhitespace(s[|s| - 1])
    ensures TrimEnd(s) == s
  {
  }

  /** Trimming a trimmed string changes nothing; in particular `trim` is idempotent. */
  lemma TrimIdempotent(s: string)
    ensures Trimmed(s) ==> Trim(s) == s
    ensures Trim(Trim(s)) == Trim(s)
  {
    if Trimmed(s) {
      TrimStartOfTrimmed(s);
      TrimEndOfTrimmed(s);
    }
    var t := Trim(s);
    TrimIsCore(s);
    TrimStartOfTrimmed(t);
    TrimEndOfTrimmed(t);
  }

  /** Surrounding whitespace does not change the trimmed result. */
  lemma {:induction false} TrimStartPadding(w: string, s: string)
    requires AllWhitespace(w)
    ensures TrimStart(w + s) == TrimStart(s)
    decreases |w|
  {
    if |w| > 0 {
      assert (w + s)[0] == w[0] && IsWhitespace(w[0]);
      assert TrimStart(w + s) == TrimStart((w + s)[1..]);
      assert (w + s)[1..] == w[1..] + s;
      TrimStartPadding(w[1..], s);
    } else {
      assert w + s == s;
    }
  }

  lemma {:induction false} TrimEndPadding(s: string, w: string)
    requires AllWhitespace(w)
    ensures TrimEnd(s + w) == TrimEnd(s)
    decreases |w|
  {
    if |w| > 0 {
      assert (s + w)[|s + w| - 1] == w[|w| - 1] && IsWhitespace(w[|w| - 1]);
      assert TrimEnd(s + w) == TrimEnd((s + w)[..|s + w| - 1]);
      assert (s + w)[..|s + w| - 1] == s + w[..|w| - 1];
      TrimEndPadding(s, w[..|w| - 1]);
    } else {
      assert s + w == s;
    }
  }

  lemma {:induction false} TrimStartKeepsEnd(s: string, w: string)
    requires AllWhitespace(w)
    requires exists k :: 0 <= k < |s| && !IsWhitespace(s[k])
    ensures TrimStart(s + w) == TrimStart(s) + w
    decreases |s|
  {
    if IsWhitespace(s[0]) {
      var k :| 0 <= k < |s| && !IsWhitespace(s[k]);
      assert k > 0 && !IsWhitespace(s[1..][k - 1]);
      assert (s + w)[1..] == s[1..] + w;
      TrimStartKeepsEnd(s[1..], w);
    }
  }

  /** A string of whitespace only trims to the empty string. */
  lemma TrimStartAllWhitespace(s: string)
    requires AllWhitespace(s)
    ensures TrimStart(s) == []
  {
    TrimStartPadding(s, []);
    assert s + [] == s;
  }

  /** `trim` ignores any whitespace padding on either side. */
  lemma TrimPadding(w1: string, s: string, w2: string)
    requires AllWhitespace(w1) && AllWhitespace(w2)
    ensures Trim(w1 + s + w2) == Trim(s)
  {
    assert w1 + s + w2 == w1 + (s + w2);
    TrimStartPadding(w1, s + w2);
    if AllWhitespace(s) {
      assert AllWhitespace(s + w2);
      TrimStartAllWhitespace(s + w2);
      TrimStartAllWhitespace(s);
    } else {
      TrimStartKeepsEnd(s, w2);
      TrimEndPadding(TrimStart(s), w2);
    }
  }

  // ---------------------------------------------------------------------------
  // Case mapping
  // ---------------------------------------------------------------------------

  /** `toLowerCase` on one character: ASCII capitals and the Kelvin sign,
      the only character outside ASCII whose lower-case form is ASCII. */
  function LowerChar(c: char): (r: char)
    ensures !('A' <= r <= 'Z') && r != '\U{212A}'
    ensures c as int < 0x80 ==> r as int < 0x80
  {
    if 'A' <= c <= 'Z' then (c as int + 32) as char
    else if c == '\U{212A}' then 'k'
    else c
  }

  /** No character of `s` has a different lower-case form. */
  predicate NoCapitals(s: string)
  {
    forall i :: 0 <= i < |s| ==> !('A' <= s[i] <= 'Z') && s[i] != '\U{212A}'
  }

  lemma NoCapitalsSlice(s: string, i: nat, j: nat)
    requires NoCapitals(s) && i <= j <= |s|
    ensures NoCapitals(s[i..j])
  {
    assert forall k :: 0 <= k < j - i ==> s[i..j][k] == s[i + k];
  }

  /** The core of a string without capitals has no capitals either. */
  lemma NoCapitalsCore(s: string, i: nat, r: string)
    requires NoCapitals(s) && CoreAt(s, i, r)
    ensures NoCapitals(r)
  {
    NoCapitalsSlice(s, i, i + |r|);
  }

  /** Trimming a string without capitals leaves none. */
  lemma NoCapitalsTrim(s: string)
    requires NoCapitals(s)
    ensures NoCapitals(Trim(s))
  {
    NoCapitalsCore(s, |s| - |TrimStart(s)|, Trim(s));
  }

  /** Lower-casing changes nothing in a string without capitals. */
  lemma LowerOfNoCapitals(s: string)
    requires NoCapitals(s)
    ensures Lower(s) == s
  {
    forall i | 0 <= i < |s|
      ensures Lower(s)[i] == s[i]
    {
      assert !('A' <= s[i] <= 'Z') && s[i] != '\U{212A}';
    }
  }

  /** `String.prototype.toLowerCase`. */
  function Lower(s: string): (r: string)
    ensures |r| == |s|
    ensures forall i :: 0 <= i < |s| ==> r[i] == LowerChar(s[i])
    ensures NoCapitals(r)
  {
    seq(|s|, i requires 0 <= i < |s| => LowerChar(s[i]))
  }

  /** Lower-casing is idempotent and never creates or removes whitespace,
      so it commutes with `trim`. */
  lemma LowerProperties(s: string)
    ensures Lower(Lower(s)) == Lower(s)
    ensures forall i :: 0 <= i < |s| ==> (IsWhitespace(Lower(s)[i]) <==> IsWhitespace(s[i]))
    ensures Trim(Lower(s)) == Lower(Trim(s))
  {
    forall i | 0 <= i < |s|
      ensures IsWhitespace(Lower(s)[i]) <==> IsWhitespace(s[i])
    {
      LowerCharWhitespace(s[i]);
    }
    assert Lower(Lower(s)) == Lower(s);
    LowerTrimStart(s);
    LowerTrimEnd(TrimStart(s));
  }

  lemma LowerCharWhitespace(c: char)
    ensures IsWhitespace(LowerChar(c)) <==> IsWhitespace(c)
  {
  }

  lemma {:induction false} LowerTrimStart(s: string)
    ensures TrimStart(Lower(s)) == Lower(TrimStart(s))
    decreases |s|
  {
    if |s| > 0 {
      var l := Lower(s);
      LowerCharWhitespace(s[0]);
      assert l[0] == LowerChar(s[0]);
      if IsWhitespace(s[0]) {
        assert l[1..] == Lower(s[1..]);
        LowerTrimStart(s[1..]);
      }
    }
  }

  lemma {:induction false} LowerTrimEnd(s: string)
    ensures TrimEnd(Lower(s)) == Lower(TrimEnd(s))
    decreases |s|
  {
    if |s| > 0 {
      var l := Lower(s);
      LowerCharWhitespace(s[|s| - 1]);
      assert l[|s| - 1] == LowerChar(s[|s| - 1]);
      if IsWhitespace(s[|s| - 1]) {
        assert l[..|s| - 1] == Lower(s[..|s| - 1]);
        LowerTrimEnd(s[..|s| - 1]);
      }
    }
  }

  // ---------------------------------------------------------------------------
  // Substring search
  // ---------------------------------------------------------------------------

  predicate OccursAt(s: string, sub: string, i: int)
  {
    0 <= i && i + |sub| <= |s| && s[i..i + |sub|] == sub
  }

  /** A string that lacks one of `sub`'s characters does not include `sub`. */
  lemma MissingCharNotIncluded(s: string, sub: string, k: nat)
    requires k < |sub| && sub[k] !in s
    ensures !Includes(s, sub)
  {
    forall i ensures !OccursAt(s, sub, i) {
      if 0 <= i && i + |sub| <= |s| {
        assert s[i..i + |sub|][k] == s[i + k];
      }
    }
  }

  /** `String.prototype.includes`. */
  function Includes(s: string, sub: string): (r: bool)
    ensures r <==> exists i :: OccursAt(s, sub, i)
    decreases |s|
  {
    if |sub| > |s| then false
    else if s[..|sub|] == sub then
      assert OccursAt(s, sub, 0);
      true
    else
      var rest := Includes(s[1..], sub);
      assert forall i :: OccursAt(s[1..], sub, i) <==> OccursAt(s, sub, i + 1) by {
        forall i ensures OccursAt(s[1..], sub, i) <==> OccursAt(s, sub, i + 1) {
          if 0 <= i && i + |sub| <= |s| - 1 {
            assert s[1..][i..i + |sub|] == s[i + 1..i + 1 + |sub|];
          }
        }
      }
      assert !OccursAt(s, sub, 0);
      assert forall i :: OccursAt(s, sub, i) ==> i > 0 && OccursAt(s[1..], sub, i - 1);
      rest
  }
}

=== FILE: little_endian.dfy ===
/** Little-endian fixed-width integers, the byte order of Rust's
    `to_le_bytes` and of the Borsh account encoding. Two's complement is
    written out for `i64`. */
module LittleEndian {
  import opened Base

  function Pow256(n: nat): (r: nat)
    ensures r > 0
  {
    if n == 0 then 1 else 256 * Pow256(n - 1)
  }

  /** The low `n` bytes of `x`, least significant first. */
  function ToLe(x: nat, n: nat): (r: Bytes)
    ensures |r| == n
  {
    if n == 0 then [] else [x % 256] + ToLe(x / 256, n - 1)
  }

  /** The number whose little-endian digits are `bs`. */
  function FromLe(bs: Bytes): (r: nat)
    ensures r < Pow256(|bs|)
  {
    if |bs| == 0 then 0 else bs[0] + 256 * FromLe(bs[1..])
  }

  /** Decoding undoes encoding for every value that fits in `n` bytes. */
  lemma {:induction false} FromLeToLe(x: nat, n: nat)
    requires x < Pow256(n)
    ensures FromLe(ToLe(x, n)) == x
    decreases n
  {
    if n > 0 {
      assert x / 256 < Pow256(n - 1);
      FromLeToLe(x / 256, n - 1);
      var bs := ToLe(x, n);
      assert bs[1..] == ToLe(x / 256, n - 1);
    }
  }

  /** Encoding undoes decoding: every byte string is the encoding of its value. */
  lemma {:induction false} ToLeFromLe(bs: Bytes)
    ensures ToLe(FromLe(bs), |bs|) == bs
    decreases |bs|
  {
    if |bs| > 0 {
      var v := FromLe(bs);
      var rest := FromLe(bs[1..]);
      assert v % 256 == bs[0] && v / 256 == rest;
      ToLeFromLe(bs[1..]);
    }
  }

  /** Two values of the same width have the same encoding only if they are equal. */
  lemma ToLeInjective(x: nat, y: nat, n: nat)
    requires x < Pow256(n) && y < Pow256(n)
    requires ToLe(x, n) == ToLe(y, n)
    ensures x == y
  {
    FromLeToLe(x, n);
    FromLeToLe(y, n);
  }

  const TWO_64: int := 0x1_0000_0000_0000_0000

  lemma Pow256Of8()
    ensures Pow256(8) == TWO_64
  {
  }

  /** `x.to_le_bytes()` for a `u64`. */
  function U64ToLe(x: u64): (r: Bytes)
    ensures |r| == 8
  {
    ToLe(x, 8)
  }

  function U64FromLe(bs: Bytes): (r: u64)
    requires |bs| == 8
  {
    Pow256Of8();
    FromLe(bs)
  }

  /** `t.to_le_bytes()` for an `i64`: the two's complement bit pattern. */
  function I64ToLe(t: i64): (r: Bytes)
    ensures |r| == 8
  {
    ToLe(if t < 0 then t + TWO_64 else t, 8)
  }

  function I64FromLe(bs: Bytes): (r: i64)
    requires |bs| == 8
  {
    Pow256Of8();
    var v := FromLe(bs);
    if v > I64_MAX then v - TWO_64 else v
  }

  lemma U64RoundTrip(x: u64)
    ensures U64FromLe(U64ToLe(x)) == x
  {
    Pow256Of8();
    FromLeToLe(x, 8);
  }

  lemma I64RoundTrip(t: i64)
    ensures I64FromLe(I64ToLe(t)) == t
  {
    Pow256Of8();
    FromLeToLe(if t < 0 then t + TWO_64 else t, 8);
  }

  lemma U64BytesRoundTrip(bs: Bytes)
    requires |bs| == 8
    ensures U64ToLe(U64FromLe(bs)) == bs
  {
    ToLeFromLe(bs);
  }

  lemma I64BytesRoundTrip(bs: Bytes)
    requires |bs| == 8
    ensures I64ToLe(I64FromLe(bs)) == bs
  {
    Pow256Of8();
    ToLeFromLe(bs);
  }
}

=== FILE: program.dfy ===
/** The four instructions of the `ecobuild` program run against a ledger of
    program-derived accounts. An account's address is derived from its seed
    list; address derivation is a hash that this model leaves uninterpreted
    by keying the ledger on the seed list itself.

    The framework's account checks are modelled account by account, in the
    order of the accounts struct: load or create the account, check its
    constraints, then go on to the next one, and finally call the handler.
    The framework itself first loads every existing account, then creates
    the `init` accounts, and only then checks `seeds` and `constraint`. The
    two orders report different errors only when two checks fail in one
    transaction, and in a consistent ledger the `seeds` and `constraint`
    checks never fail (`ConstraintsNeverFail`), so there the errors agree.
    A failed transaction leaves the ledger as it was. */
module Program {
  import opened Base
  import opened Ecobuild
  import LittleEndian

  type Seeds = seq<Bytes>

  /** `PlayerProfile::SEED_PREFIX`, `ProjectPool::SEED_PREFIX` and
      `ProofOfCollectionReceipt::SEED_PREFIX`. */
  const PLAYER_SEED_PREFIX: Bytes := Ascii("player")
  const PROJECT_SEED_PREFIX: Bytes := Ascii("project")
  const POC_SEED_PREFIX: Bytes := Ascii("poc")

  /** `seeds = [PlayerProfile::SEED_PREFIX, authority.key().as_ref()]`. */
  function PlayerSeeds(authority: Pubkey): (r: Seeds)
    ensures |r| == 2 && r[0] == Ascii("player") && r[1] == authority
  {
    [PLAYER_SEED_PREFIX, authority]
  }

  /** `seeds = [ProjectPool::SEED_PREFIX, authority.key().as_ref(),
      &project_seed.to_le_bytes()]`. */
  function PoolSeeds(authority: Pubkey, projectSeed: u64): (r: Seeds)
    ensures |r| == 3 && r[0] == Ascii("project") && r[1] == authority && |r[2]| == 8
  {
    [PROJECT_SEED_PREFIX, authority, LittleEndian.U64ToLe(projectSeed)]
  }

  /** The last pool seed reads back as the project seed, so a pool address
      names its project seed. */
  lemma PoolSeedReadsBack(authority: Pubkey, projectSeed: u64)
    ensures LittleEndian.U64FromLe(PoolSeeds(authority, projectSeed)[2]) == projectSeed
  {
    LittleEndian.U64RoundTrip(projectSeed);
  }

  /** `seeds = [ProofOfCollectionReceipt::SEED_PREFIX,
      player_profile.authority.as_ref(), &attestation_id]`. */
  function ReceiptSeeds(player: Pubkey, attestationId: Bytes32): (r: Seeds)
    ensures |r| == 3 && r[0] == Ascii("poc") && r[1] == player && r[2] == attestationId
  {
    [POC_SEED_PREFIX, player, attestationId]
  }

  /** The three seed schemes never produce the same seed list, and each one
      determines its inputs: distinct keys give distinct accounts. */
  lemma SeedsAreUnambiguous(a: Pubkey, b: Pubkey, s: u64, t: u64, x: Bytes32, y: Bytes32)
    ensures PlayerSeeds(a) != PoolSeeds(b, s)
    ensures PlayerSeeds(a) != ReceiptSeeds(b, x)
    ensures PoolSeeds(a, s) != ReceiptSeeds(b, x)
    ensures PlayerSeeds(a) == PlayerSeeds(b) ==> a == b
    ensures PoolSeeds(a, s) == PoolSeeds(b, t) ==> a == b && s == t
    ensures ReceiptSeeds(a, x) == ReceiptSeeds(b, y) ==> a == b && x == y
  {
    assert PROJECT_SEED_PREFIX[1] != POC_SEED_PREFIX[1];
    if PoolSeeds(a, s) == PoolSeeds(b, t) {
      LittleEndian.Pow256Of8();
      LittleEndian.ToLeInjective(s, t, 8);
    }
  }

  datatype Account =
    | PlayerAccount(profile: PlayerProfile)
    | PoolAccount(pool: ProjectPool)
    | ReceiptAccount(receipt: Receipt)

  datatype Ledger = Ledger(accounts: map<Seeds, Account>)

  /** Why a transaction fails: the program's own `ErrorCode`, or one of the
      framework's account checks: `init` on an address already in use, a
      required account that does not exist, a required account whose
      discriminator names another account type, or a `seeds`/`constraint`
      check that does not hold. */
  datatype TxError =
    | ProgramError(code: ErrorCode)
    | AccountInUse
    | AccountNotInitialized
    | AccountDiscriminatorMismatch
    | ConstraintViolated

  /** The instructions with their arguments. The canonical bumps that the
      framework finds for new accounts are passed in as arguments. */
  datatype Instruction =
    | InitializePlayerIx(authority: Pubkey, bump: u8)
    | CreateProjectPoolIx(authority: Pubkey, bump: u8, projectSeed: u64, name: string, goalCredits: u64)
    | ContributeCreditsIx(authority: Pubkey, poolAddress: Seeds, amount: u64)
    | MintPocReceiptIx(
        authority: Pubkey, bump: u8, attestationId: Bytes32, photoHash: Bytes32,
        zoneId: string, materialType: u8, quantity: u64, timestamp: i64)

  /** A freshly created account is zero-filled before the handler runs. */
  const ZERO_KEY: Pubkey := Zeros(32)
  const ZERO_PLAYER := PlayerProfile(ZERO_KEY, 0, 0)
  const ZERO_POOL := ProjectPool(ZERO_KEY, 0, 0, 0, 0, 0, Zeros(32))
  const ZERO_RECEIPT := Receipt(ZERO_KEY, 0, Zeros(32), Zeros(32), 0, Zeros(32), 0, 0, 0)

  /** The profile stored under `PlayerSeeds(authority)`, checked against the
      `constraint = player_profile.authority == authority.key()`. */
  function LoadSigningPlayer(l: Ledger, authority: Pubkey): (r: Result<PlayerProfile, TxError>)
    ensures var key := PlayerSeeds(authority);
      r.Ok? <==>
        key in l.accounts && l.accounts[key].PlayerAccount? && l.accounts[key].profile.authority == authority
    ensures r.Ok? ==>
      PlayerSeeds(authority) in l.accounts && l.accounts[PlayerSeeds(authority)] == PlayerAccount(r.value)
    ensures var key := PlayerSeeds(authority);
      key !in l.accounts ==> r == Err(AccountNotInitialized)
    ensures var key := PlayerSeeds(authority);
      key in l.accounts && !l.accounts[key].PlayerAccount? ==> r == Err(AccountDiscriminatorMismatch)
    ensures var key := PlayerSeeds(authority);
      key in l.accounts && l.accounts[key].PlayerAccount? && l.accounts[key].profile.authority != authority ==>
        r == Err(ConstraintViolated)
  {
    var key := PlayerSeeds(authority);
    if key !in l.accounts then Err(AccountNotInitialized)
    else if !l.accounts[key].PlayerAccount? then Err(AccountDiscriminatorMismatch)
    else if l.accounts[key].profile.authority != authority then Err(ConstraintViolated)
    else Ok(l.accounts[key].profile)
  }

  /** Runs one instruction as a transaction. A successful one only adds or
      overwrites accounts at the addresses the instruction writes. */
  function Execute(l: Ledger, ix: Instruction): (r: Result<Ledger, TxError>)
    ensures r.Ok? ==> l.accounts.Keys <= r.value.accounts.Keys <= l.accounts.Keys + Writes(ix)
    ensures r.Ok? ==>
      forall key :: key in l.accounts && key !in Writes(ix) ==> r.value.accounts[key] == l.accounts[key]
  {
    match ix
    case InitializePlayerIx(authority, bump) =>
      var key := PlayerSeeds(authority);
      if key in l.accounts then Err(AccountInUse)
      else
        (match InitializePlayer(ZERO_PLAYER, authority, bump)
         case Err(e) => Err(ProgramError(e))
         case Ok(p) => Ok(Ledger(l.accounts[key := PlayerAccount(p)])))

    case CreateProjectPoolIx(authority, bump, projectSeed, name, goal) =>
      var key := PoolSeeds(authority, projectSeed);
      if key in l.accounts then Err(AccountInUse)
      else
        (match InitializePool(ZERO_POOL, authority, bump, projectSeed, goal, name)
         case Err(e) => Err(ProgramError(e))
         case Ok(q) => Ok(Ledger(l.accounts[key := PoolAccount(q)])))

    case ContributeCreditsIx(authority, poolAddress, amount) =>
      (match LoadSigningPlayer(l, authority)
       case Err(e) => Err(e)
       case Ok(player) =>
        if poolAddress !in l.accounts then Err(AccountNotInitialized)
        else if !l.accounts[poolAddress].PoolAccount? then Err(AccountDiscriminatorMismatch)
        else
          var pool := l.accounts[poolAddress].pool;
          if poolAddress != PoolSeeds(pool.authority, pool.seed) then Err(ConstraintViolated)
          else
            (match ContributeCredits(player, pool, amount)
             case Err(e) => Err(ProgramError(e))
             case Ok(updated) =>
               Ok(Ledger(l.accounts[PlayerSeeds(authority) := PlayerAccount(updated.0)]
                                   [poolAddress := PoolAccount(updated.1)]))))

    case MintPocReceiptIx(authority, bump, attestationId, photoHash, zoneId, materialType, quantity, timestamp) =>
      match LoadSigningPlayer(l, authority)
      case Err(e) => Err(e)
      case Ok(player) =>
        var key := ReceiptSeeds(player.authority, attestationId);
        if key in l.accounts then Err(AccountInUse)
        else
          match InitializeReceipt(
            ZERO_RECEIPT, player.authority, bump, attestationId, photoHash, zoneId, materialType, quantity, timestamp)
          case Err(e) => Err(ProgramError(e))
          case Ok(receipt) => Ok(Ledger(l.accounts[key := ReceiptAccount(receipt)]))
  }

  /** The ledger after a transaction: unchanged when it failed. */
  function Apply(l: Ledger, ix: Instruction): (r: Ledger)
    ensures Execute(l, ix).Err? ==> r == l
    ensures l.accounts.Keys <= r.accounts.Keys
  {
    match Execute(l, ix)
    case Ok(l') => l'
    case Err(_) => l
  }

  // ---------------------------------------------------------------------------
  // Ledger invariant
  // ---------------------------------------------------------------------------

  /** Each account lives at the address derived from its own identifying
      fields and holds only values its `initialize` can produce. */
  predicate AtHome(key: Seeds, account: Account)
  {
    match account
    case PlayerAccount(p) => key == PlayerSeeds(p.authority)
    case PoolAccount(q) =>
      key == PoolSeeds(q.authority, q.seed) && q.goalCredits > 0 && q.nameLen <= NAME_MAX_LEN
    case ReceiptAccount(r) =>
      && key == ReceiptSeeds(r.player, r.attestationId)
      && r.quantity > 0 && r.timestamp > 0
      && r.zoneIdLen <= ZONE_ID_MAX_LEN && r.materialType <= 3
  }

  predicate Consistent(l: Ledger)
  {
    forall key :: key in l.accounts ==> AtHome(key, l.accounts[key])
  }

  /** Every instruction keeps the ledger consistent. */
  lemma ExecutePreservesConsistency(l: Ledger, ix: Instruction)
    requires Consistent(l)
    ensures Consistent(Apply(l, ix))
  {
    if Execute(l, ix).Ok? {
      var l' := Execute(l, ix).value;
      forall key | key in l'.accounts
        ensures AtHome(key, l'.accounts[key])
      {
        if key in Writes(ix) {
          WrittenAccountAtHome(l, ix, key);
        }
      }
    }
  }

  /** An account that an instruction writes is at home afterwards. */
  lemma WrittenAccountAtHome(l: Ledger, ix: Instruction, key: Seeds)
    requires Consistent(l)
    requires Execute(l, ix).Ok? && key in Writes(ix) && key in Execute(l, ix).value.accounts
    ensures AtHome(key, Execute(l, ix).value.accounts[key])
  {
    match ix
    case InitializePlayerIx(authority, bump) =>
      InitializePlayerOutcome(l, authority, bump);
    case CreateProjectPoolIx(authority, bump, projectSeed, name, goal) =>
      CreatePoolOutcome(l, authority, bump, projectSeed, name, goal);
    case ContributeCreditsIx(authority, poolAddress, amount) =>
      ContributedAccountsAtHome(l, authority, poolAddress, amount, key);
    case MintPocReceiptIx(authority, bump, attestationId, photoHash, zoneId, materialType, quantity, timestamp) =>
      MintedReceiptAtHome(l, authority, bump, attestationId, photoHash, zoneId, materialType, quantity, timestamp);
  }

  lemma ContributedAccountsAtHome(l: Ledger, authority: Pubkey, poolAddress: Seeds, amount: u64, key: Seeds)
    requires Consistent(l)
    requires Execute(l, ContributeCreditsIx(authority, poolAddress, amount)).Ok?
    requires key == PlayerSeeds(authority) || key == poolAddress
    ensures var l' := Execute(l, ContributeCreditsIx(authority, poolAddress, amount)).value;
      key in l'.accounts && AtHome(key, l'.accounts[key])
  {
    ContributeOutcome(l, authority, poolAddress, amount);
    assert key in l.accounts && AtHome(key, l.accounts[key]);
  }

  lemma MintedReceiptAtHome(
    l: Ledger, authority: Pubkey, bump: u8, attestationId: Bytes32, photoHash: Bytes32,
    zoneId: string, materialType: u8, quantity: u64, timestamp: i64)
    requires Consistent(l)
    requires Execute(l, MintPocReceiptIx(authority, bump, attestationId, photoHash, zoneId, materialType, quantity, timestamp)).Ok?
    ensures var key := ReceiptSeeds(authority, attestationId);
      var l' := Execute(l, MintPocReceiptIx(authority, bump, attestationId, photoHash, zoneId, materialType, quantity, timestamp)).value;
      key in l'.accounts && AtHome(key, l'.accounts[key])
  {
    MintReceiptOutcome(l, authority, bump, attestationId, photoHash, zoneId, materialType, quantity, timestamp);
  }

  /** In a consistent ledger the framework's `seeds` and `constraint` checks
      never fail: every profile is stored under its own authority and every
      pool under its own authority and seed. */
  lemma ConstraintsNeverFail(l: Ledger, ix: Instruction)
    requires Consistent(l)
    ensures Execute(l, ix) != Err(ConstraintViolated)
  {
    match ix
    case ContributeCreditsIx(authority, poolAddress, amount) =>
      var key := PlayerSeeds(authority);
      if key in l.accounts && l.accounts[key].PlayerAccount? {
        SeedsAreUnambiguous(authority, l.accounts[key].profile.authority, 0, 0, ZERO_KEY, ZERO_KEY);
      }
    case MintPocReceiptIx(authority, _, _, _, _, _, _, _) =>
      var key := PlayerSeeds(authority);
      if key in l.accounts && l.accounts[key].PlayerAccount? {
        SeedsAreUnambiguous(authority, l.accounts[key].profile.authority, 0, 0, ZERO_KEY, ZERO_KEY);
      }
    case InitializePlayerIx(_, _) =>
    case CreateProjectPoolIx(_, _, _, _, _) =>
  }

  /** The addresses an instruction may write. */
  function Writes(ix: Instruction): (r: set<Seeds>)
    ensures 1 <= |r| <= 2
  {
    match ix
    case InitializePlayerIx(authority, _) => {PlayerSeeds(authority)}
    case CreateProjectPoolIx(authority, _, projectSeed, _, _) => {PoolSeeds(authority, projectSeed)}
    case ContributeCreditsIx(authority, poolAddress, _) => {PlayerSeeds(authority), poolAddress}
    case MintPocReceiptIx(authority, _, attestationId, _, _, _, _, _) => {ReceiptSeeds(authority, attestationId)}
  }

  /** No account is ever closed, receipts are never modified once written,
      and an instruction changes nothing outside the addresses it writes. */
  lemma ExecuteFrame(l: Ledger, ix: Instruction)
    ensures l.accounts.Keys <= Apply(l, ix).accounts.Keys
    ensures forall key :: key in l.accounts && l.accounts[key].ReceiptAccount? ==>
      Apply(l, ix).accounts[key] == l.accounts[key]
    ensures forall key :: key in l.accounts && key !in Writes(ix) ==>
      Apply(l, ix).accounts[key] == l.accounts[key]
  {
  }

  /** In a consistent ledger the profile stored under an authority's player
      address belongs to that authority. */
  lemma ProfileAtHome(l: Ledger, authority: Pubkey)
    requires Consistent(l)
    ensures var key := PlayerSeeds(authority);
      key in l.accounts && l.accounts[key].PlayerAccount? ==> l.accounts[key].profile.authority == authority
  {
    var key := PlayerSeeds(authority);
    if key in l.accounts && l.accounts[key].PlayerAccount? {
      assert AtHome(key, l.accounts[key]);
      SeedsAreUnambiguous(authority, l.accounts[key].profile.authority, 0, 0, ZERO_KEY, ZERO_KEY);
    }
  }

  /** `initialize_player` succeeds exactly when the player address is free,
      and then stores a profile with no credits. */
  lemma InitializePlayerOutcome(l: Ledger, authority: Pubkey, bump: u8)
    ensures var r := Execute(l, InitializePlayerIx(authority, bump));
      var key := PlayerSeeds(authority);
      && (r.Ok? <==> key !in l.accounts)
      && (r.Err? ==> r.error == AccountInUse)
      && (r.Ok? ==> r.value.accounts == l.accounts[key := PlayerAccount(PlayerProfile(authority, bump, 0))])
  {
  }

  /** `create_project_pool` succeeds exactly when the pool address is free,
      the goal is positive and the name fits; otherwise it fails with the
      first of these checks that fails. */
  lemma CreatePoolOutcome(l: Ledger, authority: Pubkey, bump: u8, projectSeed: u64, name: string, goal: u64)
    ensures var r := Execute(l, CreateProjectPoolIx(authority, bump, projectSeed, name, goal));
      var key := PoolSeeds(authority, projectSeed);
      && (r.Ok? <==> key !in l.accounts && goal > 0 && |Utf8.Encode(name)| <= NAME_MAX_LEN)
      && (key in l.accounts ==> r == Err(AccountInUse))
      && (key !in l.accounts && goal == 0 ==> r == Err(ProgramError(InvalidAmount)))
      && (key !in l.accounts && goal > 0 && |Utf8.Encode(name)| > NAME_MAX_LEN ==> r == Err(ProgramError(NameTooLong)))
      && (r.Ok? ==>
            r.value.accounts ==
              l.accounts[key := PoolAccount(InitializePool(ZERO_POOL, authority, bump, projectSeed, goal, name).value)])
      && (r.Ok? ==>
            && r.value.accounts.Keys == l.accounts.Keys + {key}
            && r.value.accounts[key].PoolAccount?
            && var q := r.value.accounts[key].pool;
               && q.authority == authority && q.bump == bump && q.seed == projectSeed && q.goalCredits == goal
               && q.receivedCredits == 0 && q.nameLen == |Utf8.Encode(name)| <= NAME_MAX_LEN
               && q.name == Padded(Utf8.Encode(name)) && PoolName(q) == Some(name))
  {
    var r := Execute(l, CreateProjectPoolIx(authority, bump, projectSeed, name, goal));
    if r.Ok? {
      var q := InitializePool(ZERO_POOL, authority, bump, projectSeed, goal, name);
      assert r.value.accounts == l.accounts[PoolSeeds(authority, projectSeed) := PoolAccount(q.value)];
      PoolNameRoundTrip(ZERO_POOL, authority, bump, projectSeed, goal, name);
    }
  }

  /** In a consistent ledger `contribute_credits` succeeds exactly when the
      signer has a profile, the pool exists and neither counter overflows,
      and then both counters grow by the amount and nothing else changes. */
  lemma ContributeOutcome(l: Ledger, authority: Pubkey, poolAddress: Seeds, amount: u64)
    requires Consistent(l)
    ensures var r := Execute(l, ContributeCreditsIx(authority, poolAddress, amount));
      var key := PlayerSeeds(authority);
      var loaded := key in l.accounts && l.accounts[key].PlayerAccount?
        && poolAddress in l.accounts && l.accounts[poolAddress].PoolAccount?;
      && (key !in l.accounts ==> r == Err(AccountNotInitialized))
      && (key in l.accounts && !l.accounts[key].PlayerAccount? ==> r == Err(AccountDiscriminatorMismatch))
      && (key in l.accounts && l.accounts[key].PlayerAccount? && poolAddress !in l.accounts ==>
            r == Err(AccountNotInitialized))
      && (key in l.accounts && l.accounts[key].PlayerAccount? &&
          poolAddress in l.accounts && !l.accounts[poolAddress].PoolAccount? ==>
            r == Err(AccountDiscriminatorMismatch))
      && (!loaded ==> r.Err?)
      && (loaded && amount == 0 ==> r == Err(ProgramError(InvalidAmount)))
      && (loaded && amount > 0 && r.Err? ==> r == Err(ProgramError(Overflow)))
      && (loaded ==>
            var player, pool := l.accounts[key].profile, l.accounts[poolAddress].pool;
            && (r.Ok? <==> ContributeCredits(player, pool, amount).Ok?)
            && (r.Ok? <==>
                  amount > 0 && player.totalCredits + amount <= U64_MAX
                  && pool.receivedCredits + amount <= U64_MAX)
            && (r.Ok? ==>
                  r.value.accounts ==
                    l.accounts[key := PlayerAccount(player.(totalCredits := player.totalCredits + amount))]
                              [poolAddress := PoolAccount(pool.(receivedCredits := pool.receivedCredits + amount))]))
  {
    ProfileAtHome(l, authority);
    if poolAddress in l.accounts {
      assert AtHome(poolAddress, l.accounts[poolAddress]);
    }
  }

  /** `mint_poc_receipt` succeeds in a consistent ledger exactly when the
      signer has a profile, the (authority, attestation id) pair is new and
      the receipt's own checks pass; the receipt it writes names the signer's
      profile authority as its player and stores the arguments verbatim. */
  lemma MintReceiptOutcome(
    l: Ledger, authority: Pubkey, bump: u8, attestationId: Bytes32, photoHash: Bytes32,
    zoneId: string, materialType: u8, quantity: u64, timestamp: i64)
    requires Consistent(l)
    ensures var ix := MintPocReceiptIx(authority, bump, attestationId, photoHash, zoneId, materialType, quantity, timestamp);
      var key := ReceiptSeeds(authority, attestationId);
      var player := PlayerSeeds(authority);
      var receipt := InitializeReceipt(ZERO_RECEIPT, authority, bump, attestationId, photoHash, zoneId,
                                       materialType, quantity, timestamp);
      && (Execute(l, ix).Ok? <==>
            player in l.accounts && l.accounts[player].PlayerAccount? && key !in l.accounts && receipt.Ok?)
      && (player !in l.accounts ==> Execute(l, ix) == Err(AccountNotInitialized))
      && (player in l.accounts && !l.accounts[player].PlayerAccount? ==>
            Execute(l, ix) == Err(AccountDiscriminatorMismatch))
      && (key in l.accounts && player in l.accounts && l.accounts[player].PlayerAccount? ==>
            Execute(l, ix) == Err(AccountInUse))
      && (player in l.accounts && l.accounts[player].PlayerAccount? && key !in l.accounts && receipt.Err? ==>
            Execute(l, ix) == Err(ProgramError(receipt.error)))
      && (Execute(l, ix).Ok? ==>
            && key !in l.accounts
            && key in Apply(l, ix).accounts
            && Execute(l, ix).value.accounts == l.accounts[key := ReceiptAccount(receipt.value)])
  {
    ProfileAtHome(l, authority);
  }

  // ---------------------------------------------------------------------------
  // Histories
  // ---------------------------------------------------------------------------

  /** The ledgers a sequence of transactions passes through, starting at `l`. */
  function Trace(l: Ledger, ixs: seq<Instruction>): (r: seq<Ledger>)
    ensures |r| == |ixs| + 1 && r[0] == l
    ensures forall i :: 0 <= i < |ixs| ==> r[i + 1] == Apply(r[i], ixs[i])
    decreases |ixs|
  {
    if |ixs| == 0 then [l]
    else [l] + Trace(Apply(l, ixs[0]), ixs[1..])
  }

  lemma {:induction false} TraceConsistent(l: Ledger, ixs: seq<Instruction>, i: nat)
    requires Consistent(l) && i <= |ixs|
    ensures Consistent(Trace(l, ixs)[i])
    decreases i
  {
    if i > 0 {
      TraceConsistent(l, ixs, i - 1);
      ExecutePreservesConsistency(Trace(l, ixs)[i - 1], ixs[i - 1]);
    }
  }

  lemma {:induction false} TraceKeysGrow(l: Ledger, ixs: seq<Instruction>, i: nat, j: nat)
    requires i <= j <= |ixs|
    ensures Trace(l, ixs)[i].accounts.Keys <= Trace(l, ixs)[j].accounts.Keys
    decreases j - i
  {
    if i < j {
      TraceKeysGrow(l, ixs, i, j - 1);
      ExecuteFrame(Trace(l, ixs)[j - 1], ixs[j - 1]);
    }
  }

  /** Receipts are unique per (authority, attestation id): in any history
      from a consistent ledger, two successful `mint_poc_receipt`
      transactions never share that pair. */
  lemma AtMostOneReceiptPerKey(l: Ledger, ixs: seq<Instruction>, i: nat, j: nat)
    requires Consistent(l)
    requires i < j < |ixs|
    requires ixs[i].MintPocReceiptIx? && ixs[j].MintPocReceiptIx?
    requires Execute(Trace(l, ixs)[i], ixs[i]).Ok? && Execute(Trace(l, ixs)[j], ixs[j]).Ok?
    ensures (ixs[i].authority, ixs[i].attestationId) != (ixs[j].authority, ixs[j].attestationId)
  {
    var t := Trace(l, ixs);
    if (ixs[i].authority, ixs[i].attestationId) == (ixs[j].authority, ixs[j].attestationId) {
      var ix := ixs[i];
      var key := ReceiptSeeds(ix.authority, ix.attestationId);
      TraceConsistent(l, ixs, i);
      TraceConsistent(l, ixs, j);
      MintReceiptOutcome(t[i], ix.authority, ix.bump, ix.attestationId, ix.photoHash, ix.zoneId,
                         ix.materialType, ix.quantity, ix.timestamp);
      assert key in t[i + 1].accounts;
      TraceKeysGrow(l, ixs, i + 1, j);
      var jx := ixs[j];
      MintReceiptOutcome(t[j], jx.authority, jx.bump, jx.attestationId, jx.photoHash, jx.zoneId,
                         jx.materialType, jx.quantity, jx.timestamp);
      assert false;
    }
  }
}

=== FILE: utf8.dfy ===
/** Well-formed UTF-8 (Table 3-7 of the Unicode Standard, section 3.9), the
    byte-level contract behind Rust's `&str` and `String::from_utf8`, and the
    UTF-8 encoder that Node's `Buffer.from(string)` applies to seed strings. */
module Utf8 {
  import opened Base

  /** Length of the sequence that lead byte `b` starts, or 0 if `b` can never
      lead a well-formed sequence (a continuation byte, C0, C1 or F5..FF). */
  function SequenceLength(b: u8): (n: nat)
    ensures n <= 4
  {
    if b <= 0x7F then 1
    else if 0xC2 <= b <= 0xDF then 2
    else if 0xE0 <= b <= 0xEF then 3
    else if 0xF0 <= b <= 0xF4 then 4
    else 0
  }

  predicate Continuation(b: u8)
  {
    0x80 <= b <= 0xBF
  }

  /** The second byte's range depends on the lead byte: these exceptions rule
      out overlong forms (E0, F0), surrogates (ED) and code points above
      U+10FFFF (F4). */
  predicate SecondByteOk(lead: u8, b: u8)
  {
    if lead == 0xE0 then 0xA0 <= b <= 0xBF
    else if lead == 0xED then 0x80 <= b <= 0x9F
    else if lead == 0xF0 then 0x90 <= b <= 0xBF
    else if lead == 0xF4 then 0x80 <= b <= 0x8F
    else Continuation(b)
  }

  /** `s` starts with one complete well-formed sequence. */
  predicate LeadingSequence(s: Bytes)
  {
    && |s| > 0
    && var n := SequenceLength(s[0]);
    && 0 < n <= |s|
    && (n >= 2 ==> SecondByteOk(s[0], s[1]))
    && (forall i :: 2 <= i < n ==> Continuation(s[i]))
  }

  /** `s` is a concatenation of well-formed sequences. */
  predicate Valid(s: Bytes)
    decreases |s|
  {
    |s| == 0 || (LeadingSequence(s) && Valid(s[SequenceLength(s[0])..]))
  }

  /** The code point that the well-formed sequence at the start of `s`
      stands for. Well-formedness makes it a Unicode scalar value: at most
      U+10FFFF and never a surrogate. */
  function DecodeLeading(s: Bytes): (cp: int)
    requires LeadingSequence(s)
    ensures 0 <= cp < 0x110000 && !(0xD800 <= cp < 0xE000)
    ensures SequenceLength(s[0]) == 1 ==> cp < 0x80
    ensures SequenceLength(s[0]) == 2 ==> 0x80 <= cp < 0x800
    ensures SequenceLength(s[0]) == 3 ==> 0x800 <= cp < 0x10000
    ensures SequenceLength(s[0]) == 4 ==> 0x10000 <= cp
  {
    var n := SequenceLength(s[0]);
    if n == 1 then s[0]
    else if n == 2 then (s[0] as int - 0xC0) * 0x40 + (s[1] as int - 0x80)
    else if n == 3 then
      (s[0] as int - 0xE0) * 0x1000 + (s[1] as int - 0x80) * 0x40 + (s[2] as int - 0x80)
    else
      (s[0] as int - 0xF0) * 0x40000 + (s[1] as int - 0x80) * 0x1000
      + (s[2] as int - 0x80) * 0x40 + (s[3] as int - 0x80)
  }

  /** The two-byte form, for U+0080..U+07FF. */
  function EncodeTwo(cp: int): (r: Bytes)
    requires 0x80 <= cp < 0x800
    ensures |r| == 2 && SequenceLength(r[0]) == 2 && LeadingSequence(r)
    ensures DecodeLeading(r) == cp
  {
    var hi, lo := cp / 0x40, cp % 0x40;
    assert 2 <= hi < 0x20;
    [0xC0 + hi, 0x80 + lo]
  }

  /** The three-byte form, for U+0800..U+FFFF without the surrogates. */
  function EncodeThree(cp: int): (r: Bytes)
    requires 0x800 <= cp < 0x10000 && !(0xD800 <= cp < 0xE000)
    ensures |r| == 3 && SequenceLength(r[0]) == 3 && LeadingSequence(r)
    ensures DecodeLeading(r) == cp
  {
    var top, rest := cp / 0x1000, cp % 0x1000;
    var mid, lo := rest / 0x40, rest % 0x40;
    assert cp == top * 0x1000 + mid * 0x40 + lo;
    assert top == 0 ==> mid >= 0x20;
    assert top == 0xD ==> mid < 0x20;
    [0xE0 + top, 0x80 + mid, 0x80 + lo]
  }

  /** The four-byte form, for U+10000..U+10FFFF. */
  function EncodeFour(cp: int): (r: Bytes)
    requires 0x10000 <= cp < 0x110000
    ensures |r| == 4 && SequenceLength(r[0]) == 4 && LeadingSequence(r)
    ensures DecodeLeading(r) == cp
  {
    var top, rest := cp / 0x40000, cp % 0x40000;
    var second, rest2 := rest / 0x1000, rest % 0x1000;
    var third, lo := rest2 / 0x40, rest2 % 0x40;
    assert cp == top * 0x40000 + second * 0x1000 + third * 0x40 + lo;
    assert top == 0 ==> second >= 0x10;
    assert top == 4 ==> second < 0x10;
    [0xF0 + top, 0x80 + second, 0x80 + third, 0x80 + lo]
  }

  /** The UTF-8 encoding of one Unicode scalar value: a single well-formed
      sequence that decodes back to the character. */
  function EncodeChar(c: char): (r: Bytes)
    ensures 1 <= |r| <= 4
    ensures SequenceLength(r[0]) == |r|
    ensures LeadingSequence(r)
    ensures DecodeLeading(r) == c as int
  {
    var cp := c as int;
    if cp < 0x80 then [cp]
    else if cp < 0x800 then EncodeTwo(cp)
    else if cp < 0x10000 then EncodeThree(cp)
    else EncodeFour(cp)
  }

  /** The UTF-8 encoding of a string, as `Buffer.from(s)` produces it. */
  function Encode(s: string): (r: Bytes)
    ensures |r| >= |s|
  {
    if |s| == 0 then [] else EncodeChar(s[0]) + Encode(s[1..])
  }

  /** One well-formed sequence followed by valid UTF-8 is valid UTF-8. */
  lemma ValidPrepend(a: Bytes, b: Bytes)
    requires LeadingSequence(a) && SequenceLength(a[0]) == |a|
    requires Valid(b)
    ensures Valid(a + b)
  {
    var ab := a + b;
    assert ab[0] == a[0];
    assert ab[..|a|] == a;
    assert ab[|a|..] == b;
  }

  /** Every string encodes to valid UTF-8, so `String::from_utf8` accepts the
      bytes of any `&str`. */
  lemma {:induction false} EncodeIsValid(s: string)
    ensures Valid(Encode(s))
    decreases |s|
  {
    if |s| > 0 {
      EncodeIsValid(s[1..]);
      ValidPrepend(EncodeChar(s[0]), Encode(s[1..]));
    }
  }

  /** On ASCII text the UTF-8 encoding is the byte-per-character literal. */
  lemma {:induction false} EncodeAscii(s: string)
    requires forall i :: 0 <= i < |s| ==> s[i] as int < 0x80
    ensures Encode(s) == Ascii(s)
    decreases |s|
  {
    if |s| > 0 {
      EncodeAscii(s[1..]);
      assert Ascii(s) == [s[0] as int] + Ascii(s[1..]);
    }
  }

  /** Distinct strings have distinct encodings: the lead byte fixes the
      length of the first sequence, which then decodes to the first
      character. */
  lemma {:induction false} EncodeInjective(s: string, t: string)
    requires Encode(s) == Encode(t)
    ensures s == t
    decreases |s|
  {
    if |s| > 0 && |t| > 0 {
      var e := Encode(s);
      var a, b := EncodeChar(s[0]), EncodeChar(t[0]);
      assert e == a + Encode(s[1..]) && e == b + Encode(t[1..]);
      assert a[0] == e[0] == b[0];
      assert |a| == |b|;
      assert a == e[..|a|] == b;
      assert s[0] as int == t[0] as int;
      assert Encode(s[1..]) == e[|a|..] == Encode(t[1..]);
      EncodeInjective(s[1..], t[1..]);
      assert s == [s[0]] + s[1..] && t == [t[0]] + t[1..];
    }
  }

  /** Splitting `q * 64 + r` with `r < 64` by 64 gives back `q` and `r`. */
  lemma Split64(q: int, r: int)
    requires 0 <= q && 0 <= r < 0x40
    ensures (q * 0x40 + r) / 0x40 == q && (q * 0x40 + r) % 0x40 == r
  {
  }

  /** Splitting `q * 4096 + r` with `r < 4096` by 4096 gives back `q` and `r`. */
  lemma Split4096(q: int, r: int)
    requires 0 <= q && 0 <= r < 0x1000
    ensures (q * 0x1000 + r) / 0x1000 == q && (q * 0x1000 + r) % 0x1000 == r
  {
  }

  /** Splitting `q * 0x40000 + r` with `r < 0x40000` by 0x40000 gives back
      `q` and `r`. */
  lemma Split40000(q: int, r: int)
    requires 0 <= q && 0 <= r < 0x40000
    ensures (q * 0x40000 + r) / 0x40000 == q && (q * 0x40000 + r) % 0x40000 == r
  {
  }

  /** Encoding the decoded code point reproduces the sequence: each
      well-formed sequence is the encoding of exactly one character. */
  lemma EncodeDecodeLeading(s: Bytes)
    requires LeadingSequence(s)
    ensures EncodeChar(DecodeLeading(s) as char) == s[..SequenceLength(s[0])]
  {
    var n, cp := SequenceLength(s[0]), DecodeLeading(s);
    if n == 2 {
      Split64(s[0] as int - 0xC0, s[1] as int - 0x80);
    } else if n == 3 {
      var rest := (s[1] as int - 0x80) * 0x40 + (s[2] as int - 0x80);
      Split4096(s[0] as int - 0xE0, rest);
      Split64(s[1] as int - 0x80, s[2] as int - 0x80);
    } else if n == 4 {
      var rest2 := (s[2] as int - 0x80) * 0x40 + (s[3] as int - 0x80);
      var rest := (s[1] as int - 0x80) * 0x1000 + rest2;
      Split40000(s[0] as int - 0xF0, rest);
      Split4096(s[1] as int - 0x80, rest2);
      Split64(s[2] as int - 0x80, s[3] as int - 0x80);
    }
  }

  /** The characters that valid UTF-8 encodes, as `String::from_utf8`
      returns them. */
  function Decode(bs: Bytes): (s: string)
    requires Valid(bs)
    ensures Encode(s) == bs
    decreases |bs|
  {
    if |bs| == 0 then []
    else
      var n := SequenceLength(bs[0]);
      var c := DecodeLeading(bs) as char;
      EncodeDecodeLeading(bs);
      var s := [c] + Decode(bs[n..]);
      assert s[0] == c && s[1..] == Decode(bs[n..]);
      assert bs == bs[..n] + bs[n..];
      s
  }

  /** Decoding inverts encoding. */
  lemma DecodeEncode(s: string)
    ensures Valid(Encode(s)) && Decode(Encode(s)) == s
  {
    EncodeIsValid(s);
    EncodeInjective(Decode(Encode(s)), s);
  }
}

=== FILE: vision.dfy ===
/** The image classifier adapter of the verifier service: the fixed verdict
    returned when no classifier credential is configured, the field-by-field
    sanitising of the classifier's reply, and the mapping of an upload's MIME
    type to one of the four media types the classifier accepts. The
    classifier itself is an external oracle, passed in as a function. */
module Vision {
  import opened Base
  import opened JsString

  /** `VisionResult`, with the JSON numbers as (finite) reals. */
  datatype VisionResult = VisionResult(
    wasteDetected: bool,
    wasteType: string,
    estimatedWeightLbs: real,
    confidence: real,
    description: string)

  /** The verdict returned in mock mode. */
  const MOCK_VERDICT: VisionResult := VisionResult(
    true, "plastic", 5.0, 0.85,
    "Mock classification: appears to be collected plastic waste materials")

  /** `Math.min` and `Math.max` on two numbers. */
  function Min(a: real, b: real): (r: real)
    ensures r <= a && r <= b && (r == a || r == b)
  {
    if a <= b then a else b
  }

  function Max(a: real, b: real): (r: real)
    ensures r >= a && r >= b && (r == a || r == b)
  {
    if a >= b then a else b
  }

  /** A reply that needs no repair: confidence in [0, 1], a non-negative
      weight and a non-empty category. */
  predicate Sanitized(v: VisionResult)
  {
    0.0 <= v.confidence <= 1.0 && v.estimatedWeightLbs >= 0.0 && v.wasteType != ""
  }

  /** The "validate & clamp" block applied to the parsed reply. */
  function Sanitize(raw: VisionResult): (r: VisionResult)
    ensures Sanitized(r)
    ensures 0.0 <= raw.confidence <= 1.0 ==> r.confidence == raw.confidence
    ensures raw.confidence < 0.0 ==> r.confidence == 0.0
    ensures raw.confidence > 1.0 ==> r.confidence == 1.0
    ensures raw.estimatedWeightLbs >= 0.0 ==> r.estimatedWeightLbs == raw.estimatedWeightLbs
    ensures raw.estimatedWeightLbs < 0.0 ==> r.estimatedWeightLbs == 0.0
    ensures raw.wasteType == "" ==> r.wasteType == "mixed"
    ensures raw.wasteType != "" ==> r.wasteType == raw.wasteType
    ensures r.wasteDetected == raw.wasteDetected && r.description == raw.description
  {
    raw.(confidence := Max(0.0, Min(1.0, raw.confidence)),
         estimatedWeightLbs := Max(0.0, raw.estimatedWeightLbs),
         wasteType := if raw.wasteType == "" then "mixed" else raw.wasteType)
  }

  /** Sanitising changes a reply exactly when it needs repair, so applying it
      twice is the same as applying it once. */
  lemma SanitizeFixedPoints(v: VisionResult)
    ensures Sanitize(v) == v <==> Sanitized(v)
    ensures Sanitize(Sanitize(v)) == Sanitize(v)
  {
    if Sanitize(v) == v {
      assert Sanitized(Sanitize(v));
    }
  }

  /** The mock verdict already satisfies every sanitising rule. */
  lemma MockVerdictIsSanitized()
    ensures Sanitized(MOCK_VERDICT)
    ensures Sanitize(MOCK_VERDICT) == MOCK_VERDICT
  {
    SanitizeFixedPoints(MOCK_VERDICT);
  }

  // ---------------------------------------------------------------------------
  // Media types
  // ---------------------------------------------------------------------------

  datatype MediaType = Jpeg | Png | Gif | Webp

  function MediaTypeName(m: MediaType): (r: string)
    ensures |r| >= 9 && r[..6] == "image/"
  {
    match m
    case Jpeg => "image/jpeg"
    case Png => "image/png"
    case Gif => "image/gif"
    case Webp => "image/webp"
  }

  /** `normalizeMediaType`: case-insensitive substring tests with "png"
      before "gif" before "webp", and JPEG for everything else. */
  function NormalizeMediaType(mime: string): (r: MediaType)
    ensures r == Png <==> Includes(Lower(mime), "png")
    ensures r == Gif <==> !Includes(Lower(mime), "png") && Includes(Lower(mime), "gif")
    ensures r == Webp <==>
      !Includes(Lower(mime), "png") && !Includes(Lower(mime), "gif") && Includes(Lower(mime), "webp")
    ensures r == Jpeg <==>
      !Includes(Lower(mime), "png") && !Includes(Lower(mime), "gif") && !Includes(Lower(mime), "webp")
  {
    var lower := Lower(mime);
    if Includes(lower, "png") then Png
    else if Includes(lower, "gif") then Gif
    else if Includes(lower, "webp") then Webp
    else Jpeg
  }

  /** Normalising the string of a supported media type gives that type
      back, so `normalizeMediaType` is idempotent on its own results. */
  lemma NormalizeMediaTypeName(m: MediaType)
    ensures NormalizeMediaType(MediaTypeName(m)) == m
  {
    match m
    case Png => PngNameNormalizes(MediaTypeName(m));
    case Gif => GifNameNormalizes(MediaTypeName(m));
    case Webp => WebpNameNormalizes(MediaTypeName(m));
    case Jpeg => JpegNameNormalizes(MediaTypeName(m));
  }

  /** Each media-type string normalises to its own type: it contains its
      own keyword and lacks a character of every keyword checked before it. */
  lemma PngNameNormalizes(name: string)
    requires name == "image/png"
    ensures NormalizeMediaType(name) == Png
  {
    var lower := Lower(name);
    assert lower == name by {
      LowerOfNoCapitals(name);
    }
    assert Includes(lower, "png") by {
      assert OccursAt(name, "png", 6);
    }
  }

  lemma GifNameNormalizes(name: string)
    requires name == "image/gif"
    ensures NormalizeMediaType(name) == Gif
  {
    var lower := Lower(name);
    assert lower == name by {
      LowerOfNoCapitals(name);
    }
    assert !Includes(lower, "png") by {
      MissingCharNotIncluded(name, "png", 1);
    }
    assert Includes(lower, "gif") by {
      assert OccursAt(name, "gif", 6);
    }
  }

  lemma WebpNameNormalizes(name: string)
    requires name == "image/webp"
    ensures NormalizeMediaType(name) == Webp
  {
    WebpNameLacksEarlierKeywords(name);
    assert Includes(Lower(name), "webp") by {
      LowerOfNoCapitals(name);
      assert OccursAt(name, "webp", 6);
    }
  }

  /** "image/webp" has no "n" and no "i" after an "f", so neither "png" nor
      "gif" occurs in it. */
  lemma WebpNameLacksEarlierKeywords(name: string)
    requires name == "image/webp"
    ensures !Includes(Lower(name), "png") && !Includes(Lower(name), "gif")
  {
    var lower := Lower(name);
    assert lower == name by {
      LowerOfNoCapitals(name);
    }
    assert !Includes(lower, "png") by {
      MissingCharNotIncluded(name, "png", 1);
    }
    assert !Includes(lower, "gif") by {
      MissingCharNotIncluded(name, "gif", 2);
    }
  }

  lemma JpegNameNormalizes(name: string)
    requires name == "image/jpeg"
    ensures NormalizeMediaType(name) == Jpeg
  {
    var lower := Lower(name);
    assert lower == name by {
      LowerOfNoCapitals(name);
    }
    assert !Includes(lower, "png") by {
      MissingCharNotIncluded(name, "png", 1);
    }
    assert !Includes(lower, "gif") by {
      MissingCharNotIncluded(name, "gif", 2);
    }
    assert !Includes(lower, "webp") by {
      MissingCharNotIncluded(name, "webp", 0);
    }
  }

  /** The mapping ignores case. */
  lemma NormalizeMediaTypeIgnoresCase(mime: string)
    ensures NormalizeMediaType(Lower(mime)) == NormalizeMediaType(mime)
  {
    LowerProperties(mime);
  }

  // ---------------------------------------------------------------------------
  // classifyImage
  // ---------------------------------------------------------------------------

  /** Whether a classifier credential was configured at start-up. */
  datatype ClientConfig = NoClient | Client

  /** The classifier call: from the media type and the image to a parsed
      reply, or the error it raised. */
  type Oracle = (MediaType, Bytes) -> Result<VisionResult, string>

  /** `classifyImage`: the fixed verdict without a credential; otherwise the
      oracle's reply, sanitised, or its error. */
  function ClassifyImage(config: ClientConfig, oracle: Oracle, image: Bytes, mimeType: string)
    : (r: Result<VisionResult, string>)
    ensures config == NoClient ==> r == Ok(MOCK_VERDICT)
    ensures r.Ok? ==> Sanitized(r.value)
    ensures config == Client ==> (r.Err? <==> oracle(NormalizeMediaType(mimeType), image).Err?)
    ensures config == Client && r.Ok? ==> r.value == Sanitize(oracle(NormalizeMediaType(mimeType), image).value)
    ensures config == Client && r.Err? ==> r.error == oracle(NormalizeMediaType(mimeType), image).error
  {
    MockVerdictIsSanitized();
    match config
    case NoClient => Ok(MOCK_VERDICT)
    case Client =>
      match oracle(NormalizeMediaType(mimeType), image)
      case Err(e) => Err(e)
      case Ok(raw) => Ok(Sanitize(raw))
  }

  /** In mock mode the verdict depends on nothing: not on the image, the
      declared type, nor the oracle. */
  lemma MockModeIgnoresInput(o1: Oracle, o2: Oracle, image1: Bytes, image2: Bytes, mime1: string, mime2: string)
    ensures ClassifyImage(NoClient, o1, image1, mime1) == ClassifyImage(NoClient, o2, image2, mime2)
    ensures ClassifyImage(NoClient, o1, image1, mime1).Ok?
    ensures ClassifyImage(NoClient, o1, image1, mime1).value.wasteDetected
    ensures ClassifyImage(NoClient, o1, image1, mime1).value.wasteType == "plastic"
    ensures ClassifyImage(NoClient, o1, image1, mime1).value.estimatedWeightLbs == 5.0
    ensures ClassifyImage(NoClient, o1, image1, mime1).value.confidence == 0.85
  {
  }
}

=== FILE: waste_types.dfy ===
/** The verifier service's bridge to the on-chain program: the mapping from a
    classifier's category name to the one-byte material discriminant, and the
    seed list from which a player's profile address is derived. */
module WasteTypes {
  import opened Base
  import opened JsString
  import Utf8
  import Ecobuild
  import Program

  /** `WASTE_TYPE_MAP`, with exactly its four own keys. */
  const WASTE_TYPE_MAP: map<string, u8> := map["plastic" := 0, "glass" := 1, "metal" := 2, "paper" := 3]

  /** `wasteType.toLowerCase().trim()`: a trimmed string without capitals,
      no longer than the input. */
  function Normalize(wasteType: string): (r: string)
    ensures |r| <= |wasteType| && Trimmed(r)
    ensures NoCapitals(r)
  {
    var l := Lower(wasteType);
    NoCapitalsTrim(l);
    Trim(l)
  }

  /** The code a normalised name stands for: its entry in the map, or 0
      (plastic) when it has none. */
  function CodeOfName(name: string): (r: u8)
    ensures name in WASTE_TYPE_MAP ==> r == WASTE_TYPE_MAP[name]
    ensures name !in WASTE_TYPE_MAP ==> r == 0
  {
    if name in WASTE_TYPE_MAP then WASTE_TYPE_MAP[name] else 0
  }

  /** `wasteTypeToU8`: the code of a known category, and 0 (plastic) for any
      other one. */
  function WasteTypeToU8(wasteType: string): (r: u8)
    ensures Normalize(wasteType) in WASTE_TYPE_MAP ==> r == WASTE_TYPE_MAP[Normalize(wasteType)]
    ensures Normalize(wasteType) !in WASTE_TYPE_MAP ==> r == 0
  {
    CodeOfName(Normalize(wasteType))
  }

  /** Each code is named by exactly one key, except 0, which also stands for
      every name outside the map. */
  lemma NameCodes(name: string)
    ensures CodeOfName(name) <= 3
    ensures CodeOfName(name) == 1 <==> name == "glass"
    ensures CodeOfName(name) == 2 <==> name == "metal"
    ensures CodeOfName(name) == 3 <==> name == "paper"
    ensures CodeOfName(name) == 0 <==> name == "plastic" || name !in WASTE_TYPE_MAP
  {
  }

  /** The same, for the name the service receives: each code other than 0
      comes from exactly one normalised name. */
  lemma WasteTypeCodes(wasteType: string)
    ensures WasteTypeToU8(wasteType) <= 3
    ensures WasteTypeToU8(wasteType) == 1 <==> Normalize(wasteType) == "glass"
    ensures WasteTypeToU8(wasteType) == 2 <==> Normalize(wasteType) == "metal"
    ensures WasteTypeToU8(wasteType) == 3 <==> Normalize(wasteType) == "paper"
    ensures WasteTypeToU8(wasteType) == 0 <==>
      Normalize(wasteType) == "plastic" || Normalize(wasteType) !in WASTE_TYPE_MAP
  {
    NameCodes(Normalize(wasteType));
  }

  /** The category names the classifier is asked to choose from. */
  const CLASSIFIER_CATEGORIES: seq<string> := ["plastic", "glass", "metal", "paper", "organic", "mixed"]

  /** Every key of the map is a normalised name, so the four category names
      map to their own codes, while the classifier's other categories,
      "organic" and "mixed", fall back to 0. */
  lemma KnownNames()
    ensures forall name :: name in WASTE_TYPE_MAP ==> WasteTypeToU8(name) == WASTE_TYPE_MAP[name]
    ensures forall name :: name in CLASSIFIER_CATEGORIES && name !in WASTE_TYPE_MAP ==> WasteTypeToU8(name) == 0
  {
    forall name | name in WASTE_TYPE_MAP || name in CLASSIFIER_CATEGORIES
      ensures Normalize(name) == name
    {
      NormalizeLowerWord(name);
    }
  }

  /** A lower-case word without whitespace normalises to itself. */
  lemma NormalizeLowerWord(w: string)
    requires forall i :: 0 <= i < |w| ==> 'a' <= w[i] <= 'z'
    ensures Normalize(w) == w
  {
    forall i | 0 <= i < |w|
      ensures LowerChar(w[i]) == w[i] && !IsWhitespace(w[i])
    {
    }
    assert Lower(w) == w;
    TrimIdempotent(w);
  }

  /** The result depends only on the normalised name: normalising first
      changes nothing, and so does changing case. */
  lemma OnlyNormalizedNameMatters(wasteType: string)
    ensures Normalize(Normalize(wasteType)) == Normalize(wasteType)
    ensures WasteTypeToU8(Normalize(wasteType)) == WasteTypeToU8(wasteType)
    ensures WasteTypeToU8(Lower(wasteType)) == WasteTypeToU8(wasteType)
  {
    var n := Normalize(wasteType);
    LowerOfNoCapitals(n);
    TrimIdempotent(n);
    assert Normalize(n) == n;
    LowerOfNoCapitals(Lower(wasteType));
    assert Normalize(Lower(wasteType)) == n;
  }

  lemma LowerConcat(a: string, b: string)
    ensures Lower(a + b) == Lower(a) + Lower(b)
  {
  }

  /** Leading and trailing whitespace are ignored: " Glass " maps like "Glass". */
  lemma PaddingIsIgnored(w1: string, s: string, w2: string)
    requires AllWhitespace(w1) && AllWhitespace(w2)
    ensures Normalize(w1 + s + w2) == Normalize(s)
    ensures WasteTypeToU8(w1 + s + w2) == WasteTypeToU8(s)
  {
    LowerConcat(w1 + s, w2);
    LowerConcat(w1, s);
    LowerProperties(w1);
    LowerProperties(w2);
    TrimPadding(Lower(w1), Lower(s), Lower(w2));
  }

  /** A padded, capitalised known category maps to its code. */
  lemma PaddedGlassExample(reply: string)
    requires reply == " Glass "
    ensures WasteTypeToU8(reply) == 1
  {
    var core := "Glass";
    assert WasteTypeToU8(reply) == WasteTypeToU8(core) by {
      assert reply == [' '] + core + [' '];
      assert AllWhitespace([' ']);
      PaddingIsIgnored([' '], core, [' ']);
    }
    assert WasteTypeToU8(core) == 1 by {
      CapitalisedGlassExample(core);
    }
  }

  /** Capitals are ignored: "Glass" maps like "glass". */
  lemma CapitalisedGlassExample(reply: string)
    requires reply == "Glass"
    ensures WasteTypeToU8(reply) == 1
  {
    var lower := Lower(reply);
    assert lower == "glass" by {
      assert LowerChar('G') == 'g';
    }
    OnlyNormalizedNameMatters(reply);
    GlassExample(lower);
  }

  /** A known category in normal form maps to its own code. */
  lemma GlassExample(reply: string)
    requires reply == "glass"
    ensures WasteTypeToU8(reply) == 1
  {
    assert Normalize(reply) == reply by {
      NormalizeLowerWord(reply);
    }
    NameCodes(reply);
  }

  /** A classifier category outside the map falls back to plastic. */
  lemma OrganicExample(reply: string)
    requires reply == "organic"
    ensures WasteTypeToU8(reply) == 0
  {
    assert Normalize(reply) == reply by {
      NormalizeLowerWord(reply);
    }
    NameCodes(reply);
  }

  /** Every code the service can send is a discriminant that
      `MaterialType::try_from` accepts, and it decodes to the material of that
      discriminant. */
  lemma CodeIsAcceptedOnChain(wasteType: string)
    ensures Ecobuild.MaterialFromU8(WasteTypeToU8(wasteType)).Ok?
    ensures Ecobuild.Discriminant(Ecobuild.MaterialFromU8(WasteTypeToU8(wasteType)).value) == WasteTypeToU8(wasteType)
  {
    var code := WasteTypeToU8(wasteType);
    NameCodes(Normalize(wasteType));
    assert code <= 3;
    Ecobuild.MaterialRoundTrip(Ecobuild.Plastic, code);
  }

  // ---------------------------------------------------------------------------
  // Player profile address seeds
  // ---------------------------------------------------------------------------

  /** `[Buffer.from("player"), playerWallet.toBuffer()]`, the seed list that
      `mintBlocks`, `convertToBrick` and `getPlayerStats` all derive the
      profile address from. */
  function PlayerProfileSeeds(wallet: Pubkey): (r: seq<Bytes>)
    ensures |r| == 2 && r[1] == wallet
  {
    [Utf8.Encode("player"), wallet]
  }

  /** The client derives a wallet's profile from the same seed list the
      program uses, and distinct wallets give distinct seed lists. */
  lemma ClientSeedsMatchProgram(wallet: Pubkey, other: Pubkey)
    ensures PlayerProfileSeeds(wallet) == Program.PlayerSeeds(wallet)
    ensures PlayerProfileSeeds(wallet) == PlayerProfileSeeds(other) ==> wallet == other
  {
    Utf8.EncodeAscii("player");
  }
}

=== FILE: web_constants.dfy ===
/** Shared constants of the web client: the BLOCK-to-Brick conversion rate,
    the block-explorer link builders and the table of crafting tiers. */
module WebConstants {
  import opened Base

  /** BLOCK tokens burnt for one Brick. */
  const BLOCKS_PER_BRICK: nat := 10

  // ---------------------------------------------------------------------------
  // Explorer links
  // ---------------------------------------------------------------------------

  const EXPLORER_URL: string := "https://explorer.solana.com"
  const EXPLORER_CLUSTER: string := "devnet"

  const TX_PREFIX: string := EXPLORER_URL + "/tx/"
  const ADDRESS_PREFIX: string := EXPLORER_URL + "/address/"
  const CLUSTER_SUFFIX: string := "?cluster=" + EXPLORER_CLUSTER

  /** `explorerTxUrl`: the signature between the explorer's `/tx/` path and
      the devnet cluster query. */
  function ExplorerTxUrl(sig: string): (r: string)
    ensures r == "https://explorer.solana.com/tx/" + sig + "?cluster=devnet"
    ensures |r| == |sig| + 46 && r[31..31 + |sig|] == sig
  {
    TX_PREFIX + sig + CLUSTER_SUFFIX
  }

  /** `explorerAddrUrl`: the address between the explorer's `/address/`
      path and the devnet cluster query. */
  function ExplorerAddrUrl(addr: string): (r: string)
    ensures r == "https://explorer.solana.com/address/" + addr + "?cluster=devnet"
    ensures |r| == |addr| + 51 && r[36..36 + |addr|] == addr
  {
    ADDRESS_PREFIX + addr + CLUSTER_SUFFIX
  }

  /** What an explorer link points at. */
  datatype ExplorerLink = TxLink(sig: string) | AddressLink(addr: string)

  /** Splits `url` into the given prefix, a middle part and the cluster suffix. */
  function Between(url: string, prefix: string): (r: Option<string>)
    ensures r.Some? <==>
      |url| >= |prefix| + |CLUSTER_SUFFIX|
      && url[..|prefix|] == prefix && url[|url| - |CLUSTER_SUFFIX|..] == CLUSTER_SUFFIX
    ensures r.Some? ==> url == prefix + r.value + CLUSTER_SUFFIX
  {
    if |url| >= |prefix| + |CLUSTER_SUFFIX|
       && url[..|prefix|] == prefix && url[|url| - |CLUSTER_SUFFIX|..] == CLUSTER_SUFFIX
    then
      var middle := url[|prefix|..|url| - |CLUSTER_SUFFIX|];
      assert url == url[..|prefix|] + middle + url[|url| - |CLUSTER_SUFFIX|..];
      Some(middle)
    else None
  }

  /** Reads back the link an explorer URL was built from. */
  function ParseExplorerUrl(url: string): (r: Option<ExplorerLink>)
    ensures r.Some? && r.value.TxLink? ==> url == ExplorerTxUrl(r.value.sig)
    ensures r.Some? && r.value.AddressLink? ==> url == ExplorerAddrUrl(r.value.addr)
  {
    match Between(url, TX_PREFIX)
    case Some(sig) => Some(TxLink(sig))
    case None =>
      match Between(url, ADDRESS_PREFIX)
      case Some(addr) => Some(AddressLink(addr))
      case None => None
  }

  lemma PrefixesDiffer()
    ensures |TX_PREFIX| == 31 && |ADDRESS_PREFIX| == 36
    ensures TX_PREFIX[28] == 't' && ADDRESS_PREFIX[28] == 'a'
  {
  }

  /** Parsing inverts both builders. */
  lemma ParseInvertsBuilders(s: string)
    ensures ParseExplorerUrl(ExplorerTxUrl(s)) == Some(TxLink(s))
    ensures ParseExplorerUrl(ExplorerAddrUrl(s)) == Some(AddressLink(s))
  {
    PrefixesDiffer();
    var tx := ExplorerTxUrl(s);
    assert tx[..|TX_PREFIX|] == TX_PREFIX;
    assert tx[|tx| - |CLUSTER_SUFFIX|..] == CLUSTER_SUFFIX;
    assert tx[|TX_PREFIX|..|tx| - |CLUSTER_SUFFIX|] == s;
    var addr := ExplorerAddrUrl(s);
    assert addr[28] == 'a';
    assert addr[..|TX_PREFIX|] != TX_PREFIX by {
      assert addr[..|TX_PREFIX|][28] != TX_PREFIX[28];
    }
    assert addr[..|ADDRESS_PREFIX|] == ADDRESS_PREFIX;
    assert addr[|addr| - |CLUSTER_SUFFIX|..] == CLUSTER_SUFFIX;
    assert addr[|ADDRESS_PREFIX|..|addr| - |CLUSTER_SUFFIX|] == s;
  }

  /** Each builder is injective, and no transaction link equals an address link. */
  lemma ExplorerUrlsAreUnambiguous(a: string, b: string)
    ensures ExplorerTxUrl(a) == ExplorerTxUrl(b) ==> a == b
    ensures ExplorerAddrUrl(a) == ExplorerAddrUrl(b) ==> a == b
    ensures ExplorerTxUrl(a) != ExplorerAddrUrl(b)
  {
    ParseInvertsBuilders(a);
    ParseInvertsBuilders(b);
  }

  // ---------------------------------------------------------------------------
  // Crafting tiers
  // ---------------------------------------------------------------------------

  datatype CraftingTier = CraftingTier(name: string, bricks: nat, emoji: string, description: string)

  const CRAFTING_TIERS: seq<CraftingTier> := [
    CraftingTier("Planter", 2, "\U{1F331}", "A small planter box for community gardens"),
    CraftingTier("Organizer", 5, "\U{1F4E6}", "Storage organizer for community spaces"),
    CraftingTier("Chair", 15, "\U{1FA91}", "A sturdy recycled-material chair"),
    CraftingTier("Table", 50, "\U{1FAB5}", "Community gathering table"),
    CraftingTier("Tiny Home", 8000, "\U{1F3E0}", "A full tiny home from recycled materials")
  ]

  /** Each tier needs more Bricks than the one before it. */
  predicate Ascending(tiers: seq<CraftingTier>)
  {
    forall i :: 0 < i < |tiers| ==> tiers[i - 1].bricks < tiers[i].bricks
  }

  lemma CraftingTiersAscend()
    ensures Ascending(CRAFTING_TIERS)
    ensures forall i :: 0 <= i < |CRAFTING_TIERS| ==> CRAFTING_TIERS[i].bricks > 0
  {
  }

  /** An ascending table is ordered between any two positions, not only
      neighbouring ones. */
  lemma {:induction false} AscendingPairwise(tiers: seq<CraftingTier>, i: nat, j: nat)
    requires Ascending(tiers)
    requires i < j < |tiers|
    ensures tiers[i].bricks < tiers[j].bricks
    decreases j - i
  {
    if i + 1 < j {
      AscendingPairwise(tiers, i, j - 1);
    }
  }

  /** Whether each tier is shown as unlocked for a Brick balance
      (`bricks >= tier.bricks`). */
  function Unlocked(bricks: int, tiers: seq<CraftingTier>): (r: seq<bool>)
    ensures |r| == |tiers|
    ensures forall i :: 0 <= i < |tiers| ==> r[i] == (bricks >= tiers[i].bricks)
  {
    seq(|tiers|, i requires 0 <= i < |tiers| => bricks >= tiers[i].bricks)
  }

  /** How many tiers a Brick balance unlocks. */
  function CountUnlocked(bricks: int, tiers: seq<CraftingTier>): (r: nat)
    ensures r <= |tiers|
  {
    if |tiers| == 0 then 0
    else (if bricks >= tiers[0].bricks then 1 else 0) + CountUnlocked(bricks, tiers[1..])
  }

  /** Over an ascending table the unlocked tiers are always a prefix: the
      first `CountUnlocked` tiers are unlocked and all later ones are locked. */
  lemma {:induction false} UnlockedIsPrefix(bricks: int, tiers: seq<CraftingTier>)
    requires Ascending(tiers)
    ensures forall i :: 0 <= i < |tiers| ==>
      (Unlocked(bricks, tiers)[i] <==> i < CountUnlocked(bricks, tiers))
    decreases |tiers|
  {
    if |tiers| > 0 {
      var rest := tiers[1..];
      assert Ascending(rest) by {
        forall i | 0 < i < |rest|
          ensures rest[i - 1].bricks < rest[i].bricks
        {
          assert rest[i - 1] == tiers[i] && rest[i] == tiers[i + 1];
        }
      }
      UnlockedIsPrefix(bricks, rest);
      forall i | 1 <= i < |tiers|
        ensures Unlocked(bricks, tiers)[i] == Unlocked(bricks, rest)[i - 1]
      {
        assert rest[i - 1] == tiers[i];
      }
      if bricks < tiers[0].bricks {
        forall i | 1 <= i < |tiers|
          ensures !Unlocked(bricks, tiers)[i]
        {
          AscendingPairwise(tiers, 0, i);
        }
      }
    }
  }
}
